=== FILE: README.md ===
# Expense tracker: a verified model of the ingestion server and the client write queue

This project models the core of a small personal expense tracker. It has two halves:

- **The server** (`server.js` over SQLite, schema in `db.js`):
  - validates expense submissions;
  - stores amounts as integer paise;
  - makes create idempotent on a client-supplied `client_id`;
  - updates and deletes rows by id;
  - lists rows filtered by category, newest date first.
- **The browser client** (`public/js/*.js`, plus the older single-file `public/app.js`):
  - queues every submission in localStorage *before* posting it, removes it once the server accepts it, and replays what is left on the next page load;
  - builds the list URL;
  - derives the view's aggregates: the total, the per-category summary and the category filter.

The modules follow the source files:

| module | file | what it holds |
|---|---|---|
| `Money` | shared | rupees ⇄ paise (`Math.round(x*100)`, `p/100`) as exact arithmetic |
| `Text` | shared | JavaScript `trim`; SQLite's BINARY order and JavaScript's default sort order; form-urlencoding and its decoding |
| `Server` | `server.js` | validation, `mapRow`, the table class `ExpenseTable` with `Create`/`Insert`/`Update`/`Delete`/`List` |
| `Api` | `public/js/api.js` | the pending store class `PendingStore`, removal by client id, the post failure message, the list URL |
| `Form` | `public/js/components/form.js` | `handleSubmit` and `clearForm` |
| `Startup` | `public/js/main.js` | the replay loop, `flushPendingAndRefresh`, `init` |
| `Ui` | `public/js/ui.js` | `escapeHtml`, the total, the summary, the filter options |
| `Legacy` | `public/app.js` | the parts of the single-file client that differ from the modules |

**Outside effects.** Some of what the code does is a call into something outside the model. These calls are parameters of the model:

- `new Date(d)` validity is a predicate `parses`.
- `Number()` on the amount input is a function `number`.
- The generated uuid and the clock are plain argument values.
- How a network post ends is a `PostOutcome`: accepted, HTTP failure with its text and status text, or network failure. The replay loop receives one outcome per snapshot position.

**Requests.** Client operations return the requests they send, as a log of `PostExpense(body)` and `FetchExpenses(url)`. This lets ordering claims be stated, such as "every replayed post comes before the list fetch".

**History.** The pending store also keeps a ghost history of events: every write of the list, and every post with the list the store held when it was sent. This states the queue's main promise, that a submission is written to the store before its post goes out (`Form.EnqueueAndPost`, `Form.SubmitStoresBeforePost`). It also states the replay's promise, that an entry leaves the store only after its own post was accepted (`Startup.ReplayPending`, `Startup.ReplayWritesFollowAcceptedPosts`).

**What the code does not do, and what it lets through:**

- Listing has no pagination and only one order, `date DESC, created_at DESC`. The `sort` parameter selects between two identical SQL strings (`Server.ListSql`).
- The summary is not capped.
- No request token guards overlapping loads.
- The server's only amount check is `> 0` before rounding. So a positive amount under half a paisa, such as 0.004, is accepted and stored as 0 paise (`Money.SubHalfPaisaRoundsToZero`), so a stored amount is not always a positive integer.

## Model

| member | source | states |
|---|---|---|
| Money.ToPaise | server.js:32 | the stored paise are the nearest integer to 100·amount, halves rounded up |
| Money.ToRupees | server.js:132 | `amount_paise / 100` times 100 is the paise again, and rounds back to the same paise |
| Money.TwoDecimalRoundTrip | server.js:32 | an amount with at most two decimals survives rupees → paise → rupees unchanged |
| Money.ToPaiseMonotone | server.js:32 | rounding to paise is monotone |
| Money.PositiveAmountNonNegativePaise | server.js:22-32 | an amount that passes the `> 0` check is never stored as negative paise |
| Money.SubHalfPaisaRoundsToZero | server.js:22-32 | 0.004 passes the `> 0` check and is stored as 0 paise |
| Money.ExampleAmount | server.js:132-133 | 150.50 is stored as 15050 paise and reported as 150.5; 200 as 20000 |
| Server.Validate | server.js:19-29 | the first failing check of: amount missing or NaN, amount ≤ 0, no category, no date, unparseable date; no error exactly when all pass; each error exactly when it fails and all earlier checks pass; the PUT handler (server.js:91-96) runs the same checks in the same order |
| Server.MapRow | server.js:128-140 | `amount_paise` is the stored integer, `amount * 100` equals it and rounds back to it, every other column is copied |
| Server.Revised | server.js:99-100 | the UPDATE sets amount (rounded), category, description and date, and keeps id, created_at and client_id |
| Server.ListSql | server.js:69-79 | the SQL text is `SELECT * FROM expenses`, plus ` WHERE category = ?` when the filter is non-empty, plus `ORDER BY date DESC, created_at DESC`, whatever `sort` is |
| Server.PrecedesTotalPreorder | server.js:76 | the `date DESC, created_at DESC` order on records is total and transitive |
| Server.InsertKeepsOrder | server.js:76 | inserting a record at its position keeps a list in listing order |
| Server.IdsCount | server.js:81 | a list with distinct ids holds as many ids as records |
| Text.BinaryOrder | server.js:76 | SQLite's BINARY string order is irreflexive, total and transitive |
| Server.ExpenseTable.constructor | db.js:10-18 | an empty table satisfies the PRIMARY KEY and UNIQUE(client_id) invariant |
| Server.ExpenseTable.FindByClientId | server.js:37 | finds a row exactly when some row holds the key, and then it is the row holding it |
| Server.ExpenseTable.Create | server.js:18-51 | a failed check answers 400 with that error and changes nothing; a stored `client_id` answers 200 with its row and changes nothing; otherwise exactly one row (fresh id, rounded amount, `client_id` or null) is added and returned with 201; a colliding id answers 500 and changes nothing; the table invariant is kept |
| Server.ExpenseTable.Insert | server.js:44-59 | an id clash answers 500 and a `client_id` clash (the catch block) answers with the row holding it, both changing nothing; a row with both clashes gets one of those two answers, and nothing changes; otherwise exactly that row is added |
| Server.ExpenseTable.Update | server.js:89-103 | 400 on a failed check, 404 for an unknown id, both without change; otherwise only that row changes, as `Revised` says, and is returned |
| Server.ExpenseTable.Delete | server.js:113-118 | an unknown id answers 404 and changes nothing; otherwise exactly that row is removed, 204 |
| Server.ExpenseTable.List | server.js:67-83 | every returned record is the `mapRow` of a stored row the filter admits; each such row appears exactly once; the list is in `date DESC, created_at DESC` order |
| Text.SkipSpace | public/js/components/form.js:18 | finds the end of the run of JavaScript whitespace starting at an index: everything before it is whitespace, the character at it is not |
| Text.SkipSpaceBack | public/js/components/form.js:18 | finds, scanning backwards, the start of the run of trailing whitespace, never going below the leading run's end |
| Text.Trim | public/js/components/form.js:18-19 | the result is the run of the input between all-whitespace ends, starts and ends with non-whitespace, and is empty exactly when the input is all whitespace |
| Text.TrimUnique | public/js/components/form.js:18-19 | for any split of a string into whitespace, a part with non-whitespace ends (or empty), and whitespace, trimming yields exactly that middle part |
| Text.FormEncode | public/js/api.js:22-25 | the serialised value uses only unreserved characters, '+' and '%' escapes, and equals the input when the input is all unreserved |
| Text.FormDecodeEncode | public/js/api.js:22-25 | decoding the form-urlencoding of any string gives the string back |
| Text.PercentDecodeFormEncode | public/js/api.js:22-25 | percent-decoding the serialisation gives the string's UTF-8 bytes |
| Text.Utf8DecodeString | public/js/api.js:22-25 | UTF-8 decoding the string's bytes gives the string back |
| Text.JsOrder | public/js/ui.js:53 | JavaScript's default string order (UTF-16 code units) is irreflexive, total and transitive |
| Api.Decode | public/js/api.js:5 | `loadPending` yields the stored list, and [] when nothing is stored or the text does not parse |
| Api.PendingStore.Load | public/js/api.js:4-6 | returns the decoded slot; the legacy copy at public/app.js:35 is the same |
| Api.PendingStore.Save | public/js/api.js:8 | after `savePending(xs)` the next load yields `xs`, and the history records the write |
| Api.Post | public/js/api.js:10-19 | the post leaves the slot alone, succeeds exactly when accepted, and the history records it with the list the store held when it was sent |
| Api.Without | public/js/components/form.js:37 | the filter keeps exactly the entries with another client id |
| Api.WithoutAppend | public/js/components/form.js:37 | the filter distributes over concatenation, so the kept entries keep their order |
| Api.AppendThenRemove | public/js/components/form.js:31-38 | appending an entry and removing its client id gives the earlier list filtered by that id |
| Api.WithoutAll | public/js/main.js:32-40 | removing a set of client ids keeps exactly the other entries |
| Api.WithoutAbsent | public/js/main.js:35-36 | removing an absent client id leaves the list unchanged |
| Api.WithoutAfterWithoutAll | public/js/main.js:35-36 | removing ids one after another equals removing them together |
| Api.FailureMessage | public/js/api.js:14-17 | the thrown message is the response text, else the status text, else "Server error", and never empty; the legacy copy at public/app.js:42-45 is the same |
| Api.Posts | public/js/main.js:32-34 | one post per entry, bodies in list order |
| Api.FetchUrl | public/js/api.js:21-25 | the URL is exactly `/expenses` when both parameters are empty; the legacy copy at public/app.js:77-80 is the same |
| Api.FetchUrlParams | public/js/api.js:22-25 | the query holds `category` exactly when the filter is non-empty and `sort` exactly when the sort is non-empty, in that order, with encoded values |
| Api.ServerReadsFetchUrl | public/js/api.js:22-25 | the server's query parser reads back exactly the client's category and sort text |
| Form.CheckInput | public/js/components/form.js:21-23 | date, then trimmed category, then amount: each error exactly when its check is the first to fail; NaN, 0 and negatives fail the amount check |
| Form.BodyOf | public/js/components/form.js:28-29 | the body carries the trimmed category and description, the date, the amount and the new client id |
| Form.ClearForm | public/js/components/form.js:54-60 | amount, category and description become empty, the date becomes today |
| Form.SubmitStoresBeforePost | public/js/components/form.js:31-35 | in a submission's history the post comes right after a write, sees exactly the written list, and that list holds the new entry; any later write no longer holds it |
| Form.EnqueueAndPost | public/js/components/form.js:31-38 | the store's history gains, in order: the write of the old list plus the new entry, the post sent while the store holds exactly that list, and on acceptance the write of that list filtered by the client id; the post succeeds exactly when accepted; afterwards the store is the old list filtered by the client id, or the old list plus the entry |
| Form.HandleSubmit | public/js/components/form.js:14-49 | on a failed check: that error, nothing sent, store, history and form untouched; otherwise one post of the body, and the history shows the entry written before the post; success removes the entry and clears the form; failure keeps the entry queued, leaves the form and reports the message |
| Startup.Confirmed | public/js/main.js:32-40 | the ids whose replay was accepted are exactly the client ids of accepted snapshot positions |
| Startup.ReplayPending | public/js/main.js:32-40 | one post per snapshot entry in order; afterwards the store is the old list without the confirmed ids; with nothing confirmed the slot is untouched; the history gains exactly `ReplayEvents`, so each removal follows its own accepted post |
| Startup.ReplayOne | public/js/main.js:33-39 | one pass: the post of entry i sent with the current list, then, only if accepted, the write of that list without the entry's id; a failed post leaves the slot as it was |
| Startup.ReplayWritesFollowAcceptedPosts | public/js/main.js:33-39 | in the replay history every write comes right after the post of an entry the server accepted, and holds the list that post was sent with less that entry's client id |
| Startup.ReplayPostsEveryEntry | public/js/main.js:32-40 | the replay history holds one post per snapshot entry, whatever the outcomes |
| Startup.FlushPendingAndRefresh | public/js/main.js:27-44 | all replayed posts, then one list fetch with the filter and sort; with an empty list no post and no write; the store loses exactly the confirmed entries; the history is the replay's, each removal after its accepted post |
| Startup.Init | public/js/main.js:46-49 | the date input becomes today, then the flush and the refresh run, with the replay's history |
| Startup.ConfirmedEntryRemoved | public/js/main.js:35-36 | after the replay, no entry with an accepted client id is stored |
| Startup.UnconfirmedEntryKept | public/js/main.js:37-39 | an entry whose replay failed, or that the snapshot lacks, is still stored |
| Startup.ReplayLeavesFailures | public/js/main.js:32-40 | when the store held the snapshot, exactly the failed entries remain, in their order |
| Startup.FailuresAreUnconfirmed | public/js/main.js:32-40 | from any position on, removing the confirmed ids leaves exactly the failed entries |
| Ui.ReplaceAll | public/js/ui.js:3 | a global replace: other characters are kept, the replaced one is gone unless the replacement has it |
| Ui.EscapeHtml | public/js/ui.js:3 | the output has no '<' and no '>'; the input comes back unchanged when it has no '&', '<' or '>'; the legacy copy at public/app.js:101 is the same |
| Ui.EscapeHtmlIsSinglePass | public/js/ui.js:3 | because '&' goes first, the three passes equal one per-character escape, so no entity is escaped twice |
| Ui.UnescapeEscapeHtml | public/js/ui.js:3 | the browser's reading of the escaped text is the original string |
| Ui.TotalIsPaiseTotal | public/js/ui.js:39 | for records as `mapRow` sends them, the `reduce` total times 100 is the sum of the paise; the legacy copy at public/app.js:112 is the same |
| Ui.TotalAppend | public/js/ui.js:39 | the total of two lists is the sum of their totals |
| Ui.Dedup | public/js/ui.js:53 | `new Set` keeps one of each value and nothing else |
| Ui.SortStrings | public/js/ui.js:53 | `sort()` is a permutation |
| Ui.SortStringsSorted | public/js/ui.js:53 | the sorted list is in JavaScript's default order |
| Ui.SortedUnique | public/js/ui.js:53 | two sorted permutations of the same strings are equal, so the result does not depend on the engine's sort algorithm |
| Ui.FilterCategories | public/js/ui.js:53 | the categories are strictly increasing, and exactly the items' categories; the legacy copy at public/app.js:95 is the same |
| Ui.FilterCategoriesUnique | public/js/ui.js:53 | any strictly increasing list of exactly the items' categories is this list |
| Ui.FilterOptions | public/js/ui.js:55 | an "All" option with empty value, then one option per category in that order, labelled with the category and valued with the category cut at its first '"'; the legacy copy at public/app.js:97 is the same |
| Ui.BeforeQuote | public/js/ui.js:55 | the text before the first '"': a prefix with no '"', the whole text when it has none, and followed by '"' otherwise |
| Ui.OptionValueIsBeforeQuote | public/js/ui.js:55 | the browser reads `value="${escapeHtml(c)}"` as `c` cut at its first '"', so the value is the category exactly when the category has no '"' |
| Ui.QuotedCategoryValue | public/js/ui.js:55 | the option for the category `a"b` has the value `a` |
| Ui.CategoryTotals | public/js/ui.js:45-46 | the intended accumulation over own keys only: the keys are the distinct categories in first-seen order, each valued at that category's sum; the legacy copy at public/app.js:117-120 is the same |
| Ui.AddTo | public/js/ui.js:46 | one accumulation step: the keys gain the category, its value grows by the amount (from 0 when new), every other key keeps its value |
| Ui.WithKey | public/js/ui.js:45-46 | the insertion-order key list gains the category at its end when it is new and is unchanged otherwise |
| Ui.KeysStep | public/js/ui.js:45-46 | after one more item the keys are still the distinct categories in first-seen order |
| Ui.TotalsStep | public/js/ui.js:46 | after one more item every key is still valued at its category's sum over the items seen |
| Ui.CategoryTotalAbsent | public/js/ui.js:46 | a category no item has sums to 0 |
| Ui.RenderSummary | public/js/ui.js:43-49 | the intended summary: "No expenses" exactly when there are no items; otherwise one line per distinct category, in sorted order, with its sum; the legacy copy at public/app.js:116-123 is the same |
| Ui.SummaryAddsUpToTotal | public/js/ui.js:45-46 | the summary's category sums add up to the running total |
| Ui.AddToAsWritten | public/js/ui.js:46 | `map[c] = (map[c] \|\| 0) + amount` on `{}`: the key becomes own unless it is `__proto__`; an inherited name that is not yet own becomes the NaN text; other keys keep their presence |
| Ui.AccumulateAsWritten | public/js/ui.js:45-46 | after the loop the key order lists exactly the own keys, and `__proto__` is never one |
| Ui.SummaryAsWritten | public/js/ui.js:47-48 | each rendered line shows the value the accumulator holds for its key |
| Ui.AsWrittenOwnCategory | public/js/ui.js:45-46 | for a category that is no inherited name, the accumulator holds it exactly when some item has it, valued at its sum |
| Ui.AsWrittenInheritedCategory | public/js/ui.js:45-46 | a category named after an inherited member other than `__proto__` gets a key exactly when some item has it, and its line shows NaN |
| Ui.AsWrittenKeys | public/js/ui.js:45-46 | without inherited names, the accumulator's key order is the distinct categories in first-seen order |
| Ui.AsWrittenMatchesIntended | public/js/ui.js:45-48 | without inherited names, the rendered summary is the intended one: the sorted categories, each with its sum |
| Ui.InheritedNameCounterexample | public/js/ui.js:45-48 | a single "toString" expense of 5 renders as one NaN line, though its category sums to 5 |
| Ui.ProtoNameCounterexample | public/js/ui.js:45-48 | a single "__proto__" expense of 5 renders "No expenses", though its category sums to 5 |
| Legacy.FlushPending | public/app.js:55-69 | nothing sent or written when the list is empty; otherwise one post per entry, and exactly the confirmed entries are removed, each only after its own accepted post (the replay's history) |
| Legacy.Submit | public/app.js:126-163 | the same checks and queueing as `handleSubmit`, with the history showing the entry written before the post; on success the form returns to its markup defaults and the list is fetched after the post |
| Legacy.ResetForm | public/app.js:154 | every input shows its markup default afterwards |
| Legacy.SaveAndReload | public/app.js:143-158 | the history shows the old list plus the entry written, then the post sent while the store holds that list; on acceptance the entry is removed, the form reset and the list fetched after the post; on failure the entry stays queued and the form is untouched |
| Legacy.Init | public/app.js:170-174 | the date becomes today; all replayed posts are sent before the first list fetch, with the replay's history |

## Left out

- Floating point: amounts are exact reals. `Math.round(Number(amount)*100)`, `r.amount / 100` and the client's `reduce` are IEEE double operations in the source, so the model states the intended arithmetic, not the rounding error.
- `formatRupee` and `toFixed`: currency formatting is not modelled.
- `new Date(date)` validity and `Number()`: these are foreign calls, passed in as `parses` and `number`.
  - `Server.AmountField` says which of missing, NaN or a finite number the body holds.
  - JSON values that are not strings or numbers, `Infinity`, and a `description` sent as explicit `null` are not distinguished.
- `uuidv4`, `Math.random` and the clock: passed in as values. A uuid that repeats an existing id is handled, as the 500 answer.
- Storage failures other than the constraint checks: not modelled. In the source they reach the catch block and answer 500.
- HTTP and Express: status codes are modelled through each outcome's `Status()`. JSON serialisation, routing and static files are not modelled. The query string is shown to carry the right parameters (`Api.ServerReadsFetchUrl`), but Express's own query parser is not part of this model.
- localStorage:
  - It is one slot holding no text, a list, or unparseable text. The JSON text itself is not modelled.
  - `setItem` failures (quota) are not modelled.
- Concurrency: the async interleaving of overlapping submits, loads and replays is not modelled. The unique-violation race in server.js:53-59 is modelled sequentially by `Server.ExpenseTable.Insert`.
- DOM work:
  - markup strings, `renderTable`, `showError`, `setLoading`, the status texts and `setTimeout`;
  - the submit button's disabled state;
  - restoring the filter's selected value;
  - markup in general, except the option value the browser reads from `value="…"` (`Ui.OptionValue`), which changes what the filter sends;
  - `public/js/components/list.js`.
- Legacy.Submit: `form.reset()` restores the markup's default values, which are not part of this model, so they are a parameter.
- Ui.CategoryTotals: JavaScript objects list integer-like keys first, but the keys are sorted right after, so the model keeps the insertion order only. It states the intended own-key accumulation; the source's handling of categories named after Object.prototype members is modelled separately by `Ui.SummaryAsWritten` (see Findings).
- Ui.AddTo: starts a new key at 0 even for the inherited names (`toString`, `constructor`, `valueOf`, `__proto__` and the rest), where the source reads the inherited member; `Ui.AddToAsWritten` models that.
- Ui.RenderSummary: shows the sum for every category, where the source shows ₹NaN for a category named after an inherited member and drops `__proto__`; `Ui.SummaryAsWritten` models that.
- Text.FormEncode: Dafny strings cannot hold lone UTF-16 surrogates, so the replacement `URLSearchParams` makes for them is not modelled.
- Server.ExpenseTable.List: rows equal in both `date` and `created_at` may come in any order, as in SQLite. The model does not fix which.

## Findings

| source | as written | input that shows it | evidently intended | confidence | as-written member | corrected member |
|---|---|---|---|---|---|---|
| public/js/ui.js:45-47 (and public/app.js:117-121) | the summary accumulates into `{}`, so `map[c] \|\| 0` reads an inherited Object.prototype member for a new category named like one | one expense of 5 in category `toString` renders its line with a NaN amount; one in category `__proto__` renders "No expenses" | each category shows the sum of its amounts | not executed; follows from JavaScript's property lookup | Ui.SummaryAsWritten, Ui.InheritedNameCounterexample, Ui.ProtoNameCounterexample | Ui.RenderSummary, Ui.SummaryAddsUpToTotal |

=== FILE: api.dfy ===
/**
 * public/js/api.js: the pending-submission store kept in localStorage, the
 * failure message of `postExpense`, and the URL `fetchExpenses` requests.
 *
 * The network itself is not modelled: a post is described by its outcome
 * (`PostOutcome`), and the requests a client operation issues are returned
 * as a log of `Request`s.
 */
module Api {
  import opened Optional
  import opened Text

  // ---------------------------------------------------------------------------
  // Submissions and the pending store
  // ---------------------------------------------------------------------------

  /** The JSON body the client posts to /expenses. */
  datatype Submission = Submission(amount: real, category: string, description: string, date: string, clientId: string)

  /** One element of the stored pending list: `{client_id, body}`. */
  datatype PendingEntry = PendingEntry(clientId: string, body: Submission)

  /**
   * The localStorage slot `expense_pending_v1`: nothing (or the empty string),
   * the JSON text of a pending list, or text that `JSON.parse` rejects.
   */
  datatype Slot = Absent | Stored(entries: seq<PendingEntry>) | Corrupt

  /** `loadPending`'s value for a slot: the stored list, or [] when there is none to read. */
  function Decode(slot: Slot): (xs: seq<PendingEntry>)
    ensures slot.Stored? ==> xs == slot.entries
    ensures slot == Absent ==> xs == []
    ensures slot == Corrupt ==> xs == []
  {
    if slot.Stored? then slot.entries else []
  }

  /**
   * One step of the client's history as the store sees it: a write of the
   * pending list, or a post sent while the store held `stored`.
   */
  datatype Event = Wrote(entries: seq<PendingEntry>) | Posted(body: Submission, stored: seq<PendingEntry>)

  /**
   * The client's localStorage, reduced to the one slot the application uses.
   * `events` is the history of writes and posts, in the order they happen.
   */
  class PendingStore {
    var slot: Slot
    ghost var events: seq<Event>

    constructor (initial: Slot)
      ensures slot == initial && events == []
    {
      slot := initial;
      events := [];
    }

    /** What `loadPending()` returns now. */
    function Pending(): seq<PendingEntry>
      reads this
    {
      Decode(slot)
    }

    /** `loadPending()`. */
    method Load() returns (xs: seq<PendingEntry>)
      ensures xs == Pending()
      ensures slot.Stored? ==> xs == slot.entries
      ensures !slot.Stored? ==> xs == []
    {
      xs := Decode(slot);
    }

    /** `savePending(xs)`: overwrites the slot, so the next load yields `xs`. */
    method Save(xs: seq<PendingEntry>)
      modifies this
      ensures slot == Stored(xs)
      ensures Pending() == xs
      ensures events == old(events) + [Wrote(xs)]
    {
      slot := Stored(xs);
      events := events + [Wrote(xs)];
    }
  }

  // ---------------------------------------------------------------------------
  // Removing entries by client id
  // ---------------------------------------------------------------------------

  /** `xs.filter(x => x.client_id !== id)`. */
  function Without(xs: seq<PendingEntry>, id: string): (r: seq<PendingEntry>)
    ensures |r| <= |xs|
    ensures forall x :: x in r <==> x in xs && x.clientId != id
  {
    if xs == [] then []
    else (if xs[0].clientId == id then [] else [xs[0]]) + Without(xs[1..], id)
  }

  /** The entries whose client id is not in `ids`, in their stored order. */
  function WithoutAll(xs: seq<PendingEntry>, ids: set<string>): (r: seq<PendingEntry>)
    ensures |r| <= |xs|
    ensures forall x :: x in r <==> x in xs && x.clientId !in ids
  {
    if xs == [] then []
    else (if xs[0].clientId in ids then [] else [xs[0]]) + WithoutAll(xs[1..], ids)
  }

  /** Filtering works element by element: it distributes over concatenation, so it keeps relative order. */
  lemma {:induction false} WithoutAppend(xs: seq<PendingEntry>, ys: seq<PendingEntry>, id: string)
    ensures Without(xs + ys, id) == Without(xs, id) + Without(ys, id)
  {
    if xs != [] {
      assert (xs + ys)[1..] == xs[1..] + ys;
      WithoutAppend(xs[1..], ys, id);
    } else {
      assert xs + ys == ys;
    }
  }

  /** A list with no entry for `id` is left as it is. */
  lemma {:induction false} WithoutAbsent(xs: seq<PendingEntry>, id: string)
    requires forall x :: x in xs ==> x.clientId != id
    ensures Without(xs, id) == xs
  {
    if xs != [] {
      WithoutAbsent(xs[1..], id);
      assert xs == [xs[0]] + xs[1..];
    }
  }

  /** Appending an entry and then removing its client id gives back the rest of the list, in order. */
  lemma AppendThenRemove(xs: seq<PendingEntry>, e: PendingEntry)
    ensures Without(xs + [e], e.clientId) == Without(xs, e.clientId)
  {
    WithoutAppend(xs, [e], e.clientId);
    assert Without([e], e.clientId) == [];
  }

  lemma {:induction false} WithoutAllNone(xs: seq<PendingEntry>)
    ensures WithoutAll(xs, {}) == xs
  {
    if xs != [] {
      WithoutAllNone(xs[1..]);
      assert xs == [xs[0]] + xs[1..];
    }
  }

  /** Removing the ids one after the other is removing them all at once. */
  lemma {:induction false} WithoutAfterWithoutAll(xs: seq<PendingEntry>, ids: set<string>, id: string)
    ensures Without(WithoutAll(xs, ids), id) == WithoutAll(xs, ids + {id})
  {
    if xs != [] {
      WithoutAfterWithoutAll(xs[1..], ids, id);
      var head := if xs[0].clientId in ids then [] else [xs[0]];
      WithoutAppend(head, WithoutAll(xs[1..], ids), id);
    }
  }

  // ---------------------------------------------------------------------------
  // Posting
  // ---------------------------------------------------------------------------

  /** How a `postExpense` call ends. */
  datatype PostOutcome =
    | Accepted                                      // a 2xx response
    | HttpFailure(text: string, statusText: string)  // any other status; `text` is "" when reading it failed
    | NetworkFailure(message: string)               // `fetch` itself rejected

  /**
   * `postExpense(body)`: the request goes out, and the history records what
   * the store holds at that moment. How it ends is the parameter `outcome`;
   * the store's slot is not touched.
   */
  method Post(store: PendingStore, body: Submission, outcome: PostOutcome) returns (ok: bool)
    modifies store
    ensures ok == outcome.Accepted?
    ensures store.slot == old(store.slot)
    ensures store.events == old(store.events) + [Posted(body, old(store.Pending()))]
  {
    store.events := store.events + [Posted(body, store.Pending())];
    ok := outcome.Accepted?;
  }

  /** The message `postExpense` throws for a non-2xx response: `text || res.statusText || 'Server error'`. */
  function FailureMessage(text: string, statusText: string): (m: string)
    ensures m != ""
    ensures text != "" ==> m == text
    ensures text == "" && statusText != "" ==> m == statusText
    ensures text == "" && statusText == "" ==> m == "Server error"
  {
    if text != "" then text else if statusText != "" then statusText else "Server error"
  }

  /** `err.message` of a failed post. */
  function ErrorMessage(o: PostOutcome): string
    requires !o.Accepted?
  {
    match o
    case HttpFailure(text, statusText) => FailureMessage(text, statusText)
    case NetworkFailure(message) => message
  }

  /** A request the client sends. */
  datatype Request = PostExpense(body: Submission) | FetchExpenses(url: string)

  /** One `PostExpense` per entry, in list order. */
  function Posts(xs: seq<PendingEntry>): (r: seq<Request>)
    ensures |r| == |xs| && forall i :: 0 <= i < |xs| ==> r[i] == PostExpense(xs[i].body)
  {
    if xs == [] then [] else [PostExpense(xs[0].body)] + Posts(xs[1..])
  }

  // ---------------------------------------------------------------------------
  // The list URL
  // ---------------------------------------------------------------------------

  /** `new URLSearchParams()` with `category` and then `sort` set when truthy, serialised. */
  function QueryString(category: string, sort: string): string
  {
    if category != "" && sort != "" then Pair("category", category) + "&" + Pair("sort", sort)
    else if category != "" then Pair("category", category)
    else if sort != "" then Pair("sort", sort)
    else ""
  }

  /** One serialised `name=value` pair. */
  function Pair(name: string, value: string): string
  {
    name + "=" + FormEncode(value)
  }

  /** The URL `fetchExpenses({category, sort})` requests. */
  function FetchUrl(category: string, sort: string): (url: string)
    ensures url == "/expenses" <==> category == "" && sort == ""
  {
    var q := QueryString(category, sort);
    assert q != "" <==> category != "" || sort != "";
    "/expenses" + (if q != "" then "?" + q else "")
  }

  // ---------------------------------------------------------------------------
  // Reading the URL back
  // ---------------------------------------------------------------------------

  /** `s` cut at every `sep`. */
  function Split(s: string, sep: char): (parts: seq<string>)
    ensures |parts| >= 1
  {
    if s == [] then [""]
    else if s[0] == sep then [""] + Split(s[1..], sep)
    else var rest := Split(s[1..], sep); [[s[0]] + rest[0]] + rest[1..]
  }

  lemma {:induction false} SplitNoSep(s: string, sep: char)
    requires sep !in s
    ensures Split(s, sep) == [s]
  {
    if s != [] {
      SplitNoSep(s[1..], sep);
      assert s == [s[0]] + s[1..];
    }
  }

  lemma {:induction false} SplitAt(a: string, b: string, sep: char)
    requires sep !in a
    ensures Split(a + [sep] + b, sep) == [a] + Split(b, sep)
  {
    if a == [] {
      assert a + [sep] + b == [sep] + b;
      assert ([sep] + b)[1..] == b;
    } else {
      var s := a + [sep] + b;
      assert s[0] == a[0] && s[1..] == a[1..] + [sep] + b;
      SplitAt(a[1..], b, sep);
      assert [a[0]] + a[1..] == a;
    }
  }

  /** The index of the first `c` in `s`, or `|s|` when there is none. */
  function Find(s: string, c: char): (k: nat)
    ensures k <= |s| && c !in s[..k]
    ensures k < |s| ==> s[k] == c
  {
    if s == [] || s[0] == c then 0
    else
      var k := 1 + Find(s[1..], c);
      assert s[..k] == [s[0]] + s[1..][..k - 1];
      k
  }

  lemma FindAfter(a: string, b: string, c: char)
    requires c !in a
    ensures Find(a + [c] + b, c) == |a|
  {
    var s := a + [c] + b;
    assert s[..|a|] == a && s[|a|] == c;
  }

  lemma FindNone(s: string, c: char)
    requires c !in s
    ensures Find(s, c) == |s|
  {
  }

  /** A query parameter as it appears in a URL: a name and a still-encoded value. */
  datatype Param = Param(name: string, value: string)

  /** One `name=value` piece, cut at its first '='. */
  function ParseParam(piece: string): Param
  {
    var k := Find(piece, '=');
    if k == |piece| then Param(piece, "") else Param(piece[..k], piece[k + 1..])
  }

  /** The parameters of a URL's query: what follows the first '?', cut at every '&'. */
  function QueryParams(url: string): seq<Param>
  {
    var k := Find(url, '?');
    if k == |url| then []
    else
      ParseAll(Split(url[k + 1..], '&'))
  }

  lemma EncodedHasNoDelimiters(s: string)
    ensures '?' !in FormEncode(s) && '&' !in FormEncode(s) && '=' !in FormEncode(s)
  {
    var e := FormEncode(s);
    forall k | 0 <= k < |e| ensures e[k] != '?' && e[k] != '&' && e[k] != '=' {
      assert IsEncodedChar(e[k]);
    }
  }

  /** A parameter name made of unreserved characters only; such a name has no '=', '&' or '?'. */
  predicate PlainName(name: string)
  {
    forall k :: 0 <= k < |name| ==> IsFormSafe(name[k])
  }

  lemma NamesArePlain()
    ensures PlainName("category") && PlainName("sort")
  {
  }

  /** An encoded pair holds no '?' or '&', and cuts back at its one '=' into name and encoded value. */
  lemma EncodedPair(name: string, value: string)
    requires PlainName(name)
    ensures '?' !in Pair(name, value) && '&' !in Pair(name, value)
    ensures ParseParam(Pair(name, value)) == Param(name, FormEncode(value))
  {
    PairHasNoDelimiters(name, value);
    PairParses(name, value);
  }

  lemma PairHasNoDelimiters(name: string, value: string)
    requires PlainName(name)
    ensures '?' !in Pair(name, value) && '&' !in Pair(name, value)
  {
    EncodedHasNoDelimiters(value);
    assert '?' !in name && '&' !in name;
  }

  lemma PairParses(name: string, value: string)
    requires PlainName(name)
    ensures ParseParam(Pair(name, value)) == Param(name, FormEncode(value))
  {
    var e := FormEncode(value);
    var piece := Pair(name, value);
    assert '=' !in name;
    assert piece == name + ['='] + e;
    FindAfter(name, e, '=');
    assert piece[|name| + 1..] == e;
  }

  /** The query string holds no '?' and cuts back into its one or two pairs. */
  lemma QueryPieces(category: string, sort: string)
    ensures '?' !in QueryString(category, sort)
    ensures QueryString(category, sort) != "" ==>
      Split(QueryString(category, sort), '&') ==
        (if category != "" then [Pair("category", category)] else [])
        + (if sort != "" then [Pair("sort", sort)] else [])
  {
    NamesArePlain();
    EncodedPair("category", category);
    EncodedPair("sort", sort);
    var c, s := Pair("category", category), Pair("sort", sort);
    if category != "" && sort != "" {
      assert QueryString(category, sort) == c + ['&'] + s;
      SplitAt(c, s, '&');
      SplitNoSep(s, '&');
    } else if category != "" {
      SplitNoSep(c, '&');
    } else if sort != "" {
      SplitNoSep(s, '&');
    }
  }

  function ParseAll(pieces: seq<string>): (ps: seq<Param>)
    ensures |ps| == |pieces| && forall i :: 0 <= i < |pieces| ==> ps[i] == ParseParam(pieces[i])
  {
    seq(|pieces|, i requires 0 <= i < |pieces| => ParseParam(pieces[i]))
  }

  /** The query of `/expenses?q` is `q` cut at every '&'. */
  lemma ExpensesQuery(q: string)
    requires '?' !in q
    ensures QueryParams("/expenses" + (if q != "" then "?" + q else "")) ==
      (if q == "" then [] else ParseAll(Split(q, '&')))
  {
    var url := "/expenses" + (if q != "" then "?" + q else "");
    if q == "" {
      assert url == "/expenses";
      FindNone(url, '?');
    } else {
      assert url == "/expenses" + ['?'] + q;
      FindAfter("/expenses", q, '?');
      assert url[|"/expenses"| + 1..] == q;
    }
  }

  /**
   * The URL carries a `category` parameter exactly when the filter is
   * non-empty and a `sort` parameter exactly when the sort is non-empty, in
   * that order, each holding its encoded value.
   */
  lemma FetchUrlParams(category: string, sort: string)
    ensures QueryParams(FetchUrl(category, sort)) ==
      (if category != "" then [Param("category", FormEncode(category))] else [])
      + (if sort != "" then [Param("sort", FormEncode(sort))] else [])
  {
    var q := QueryString(category, sort);
    QueryPieces(category, sort);
    ExpensesQuery(q);
    assert QueryParams(FetchUrl(category, sort)) == if q == "" then [] else ParseAll(Split(q, '&'));
    ParsePieces(category, sort);
  }

  /** Parsing the pieces of the query gives each name with its encoded value. */
  lemma ParsePieces(category: string, sort: string)
    ensures ParseAll((if category != "" then [Pair("category", category)] else [])
                     + (if sort != "" then [Pair("sort", sort)] else [])) ==
      (if category != "" then [Param("category", FormEncode(category))] else [])
      + (if sort != "" then [Param("sort", FormEncode(sort))] else [])
  {
    var cs := if category != "" then [Pair("category", category)] else [];
    var ss := if sort != "" then [Pair("sort", sort)] else [];
    ParseAllAppend(cs, ss);
    NamesArePlain();
    ParseOne("category", category);
    ParseOne("sort", sort);
  }

  lemma ParseAllAppend(a: seq<string>, b: seq<string>)
    ensures ParseAll(a + b) == ParseAll(a) + ParseAll(b)
  {
  }

  /** One serialised pair parses back into its name and encoded value. */
  lemma ParseOne(name: string, value: string)
    requires PlainName(name)
    ensures ParseAll([Pair(name, value)]) == [Param(name, FormEncode(value))]
  {
    EncodedPair(name, value);
  }

  /** The parameters as the server's query parser hands them over: names and values decoded. */
  function DecodeParams(ps: seq<Param>): (ds: seq<Param>)
    ensures |ds| == |ps|
    ensures forall i :: 0 <= i < |ps| ==> ds[i] == Param(FormDecode(ps[i].name), FormDecode(ps[i].value))
  {
    seq(|ps|, i requires 0 <= i < |ps| => Param(FormDecode(ps[i].name), FormDecode(ps[i].value)))
  }

  /**
   * The server reads back exactly the filter and the sort the client asked
   * for: `category` when non-empty, then `sort` when non-empty, with their
   * original text.
   */
  lemma ServerReadsFetchUrl(category: string, sort: string)
    ensures DecodeParams(QueryParams(FetchUrl(category, sort))) ==
      (if category != "" then [Param("category", category)] else [])
      + (if sort != "" then [Param("sort", sort)] else [])
  {
    FetchUrlParams(category, sort);
    var cs := if category != "" then [Param("category", FormEncode(category))] else [];
    var ss := if sort != "" then [Param("sort", FormEncode(sort))] else [];
    DecodeParamsAppend(cs, ss);
    NamesDecode();
    DecodeOne("category", category);
    DecodeOne("sort", sort);
  }

  lemma DecodeParamsAppend(a: seq<Param>, b: seq<Param>)
    ensures DecodeParams(a + b) == DecodeParams(a) + DecodeParams(b)
  {
  }

  /** A name that decodes to itself, with an encoded value, decodes to the name and the original value. */
  lemma DecodeOne(name: string, value: string)
    requires FormDecode(name) == name
    ensures DecodeParams([Param(name, FormEncode(value))]) == [Param(name, value)]
  {
    FormDecodeEncode(value);
  }

  /** The parameter names are plain letters, which decoding leaves alone. */
  lemma NamesDecode()
    ensures FormDecode("category") == "category" && FormDecode("sort") == "sort"
  {
    NamesArePlain();
    PlainNameDecodes("category");
    PlainNameDecodes("sort");
  }

  /** A name made of unreserved characters only decodes to itself. */
  lemma PlainNameDecodes(name: string)
    requires PlainName(name)
    ensures FormDecode(name) == name
  {
    FormDecodeEncode(name);
  }
}

=== FILE: form.dfy ===
/**
 * public/js/components/form.js: the submit handler that validates the form,
 * queues the submission in the pending store before posting it, and removes
 * it again once the server has accepted it; and `clearForm`.
 */
module Form {
  import opened Optional
  import opened Text
  import opened Api

  /** What `Number(amountInput.value)` yields. */
  datatype NumberValue = NaN | Num(value: real)

  /** The client-side validation messages, in the order they are checked. */
  datatype InputError = DateRequired | CategoryRequired | AmountNotPositive
  {
    function Message(): string
    {
      match this
      case DateRequired => "Date is required"
      case CategoryRequired => "Category is required"
      case AmountNotPositive => "Amount must be greater than 0"
    }
  }

  /**
   * The handler's checks on the date, the trimmed category and the amount,
   * stopping at the first failure. `!amount || amount <= 0` rejects NaN, 0
   * and negative numbers.
   */
  function CheckInput(date: string, category: string, amount: NumberValue): (r: Option<InputError>)
    ensures r == Some(DateRequired) <==> date == ""
    ensures r == Some(CategoryRequired) <==> date != "" && category == ""
    ensures r == Some(AmountNotPositive) <==> date != "" && category != "" && !(amount.Num? && amount.value > 0.0)
    ensures r == None <==> date != "" && category != "" && amount.Num? && amount.value > 0.0
  {
    if date == "" then Some(DateRequired)
    else if category == "" then Some(CategoryRequired)
    else if !amount.Num? || amount.value <= 0.0 then Some(AmountNotPositive)
    else None
  }

  /** The four inputs of the expense form, as their current text. */
  class FormFields {
    var amount: string
    var category: string
    var description: string
    var date: string

    constructor (amount: string, category: string, description: string, date: string)
      ensures this.amount == amount && this.category == category
      ensures this.description == description && this.date == date
    {
      this.amount := amount;
      this.category := category;
      this.description := description;
      this.date := date;
    }
  }

  /** `clearForm`: empty amount, category and description; the date becomes `today`. */
  method ClearForm(form: FormFields, today: string)
    modifies form
    ensures form.amount == "" && form.category == "" && form.description == "" && form.date == today
  {
    form.amount := "";
    form.category := "";
    form.description := "";
    form.date := today;
  }

  /**
   * The history of one queued submission: the list with the new entry is
   * written, the post is sent while the store holds that list, and on success
   * the list without the entry's client id is written.
   */
  ghost function SubmitEvents(before: seq<PendingEntry>, body: Submission, accepted: bool): seq<Event>
  {
    var q := before + [PendingEntry(body.clientId, body)];
    [Wrote(q), Posted(body, q)] + (if accepted then [Wrote(Without(q, body.clientId))] else [])
  }

  /**
   * The entry is stored before its post: the write just before the post holds
   * the entry, and the post sees exactly that list.
   */
  lemma SubmitStoresBeforePost(before: seq<PendingEntry>, body: Submission, accepted: bool)
    ensures var t := SubmitEvents(before, body, accepted);
      t[0].Wrote? && t[1].Posted? && t[1].body == body && t[1].stored == t[0].entries
      && PendingEntry(body.clientId, body) in t[1].stored
      && forall k :: 2 <= k < |t| ==> t[k].Wrote? && PendingEntry(body.clientId, body) !in t[k].entries
  {
  }

  /**
   * The queueing part of the submit handler, shared with public/app.js:
   * append `{client_id, body}` to the stored list, post `body`, and on
   * success remove every entry with that client id. Returns whether the post
   * succeeded; the store's history gains exactly `SubmitEvents`.
   */
  method EnqueueAndPost(store: PendingStore, body: Submission, post: PostOutcome) returns (ok: bool)
    modifies store
    ensures ok == post.Accepted?
    ensures store.events == old(store.events) + SubmitEvents(old(store.Pending()), body, ok)
    ensures ok ==> store.Pending() == Without(old(store.Pending()), body.clientId)
    ensures !ok ==> store.Pending() == old(store.Pending()) + [PendingEntry(body.clientId, body)]
  {
    var pending := store.Load();
    var entry := PendingEntry(body.clientId, body);
    store.Save(pending + [entry]);
    ok := Post(store, body, post);
    if ok {
      var cur := store.Load();
      AppendThenRemove(pending, entry);
      store.Save(Without(cur, body.clientId));
    }
  }

  /** How a submit ends. */
  datatype SubmitResult =
    | InputRejected(error: InputError)  // shown, nothing queued or sent
    | Saved(body: Submission)           // posted and confirmed; the caller's onSaved refreshes the list
    | SaveFailed(message: string)       // posted and failed; the entry stays queued

  /** The text the handler shows when the post fails. */
  function FailedText(post: PostOutcome): string
    requires !post.Accepted?
  {
    "Failed to save \U{2014} will retry automatically. " + ErrorMessage(post)
  }

  /** The body the handler builds from the form: trimmed category and description, and the new client id. */
  function BodyOf(amount: real, category: string, description: string, date: string, clientId: string): (b: Submission)
    ensures b.category == Trim(category) && b.description == Trim(description)
    ensures b.amount == amount && b.date == date && b.clientId == clientId
  {
    Submission(amount, Trim(category), Trim(description), date, clientId)
  }

  /**
   * `handleSubmit`. `number` stands for JavaScript's `Number()`, `clientId`
   * for the fresh `uuidv4()`, `post` for how the network call ends and
   * `today` for the current date. `requests` are the requests it sends; the
   * store's history records that the entry is written before the post.
   */
  method HandleSubmit(form: FormFields, store: PendingStore, number: string -> NumberValue,
                      clientId: string, post: PostOutcome, today: string)
    returns (r: SubmitResult, requests: seq<Request>)
    modifies form, store
    ensures var amount := number(old(form.amount));
      var check := CheckInput(old(form.date), Trim(old(form.category)), amount);
      if check.Some? then
        r == InputRejected(check.value) && requests == []
        && store.slot == old(store.slot) && store.events == old(store.events)
        && unchanged(form)
      else
        var body := BodyOf(amount.value, old(form.category), old(form.description), old(form.date), clientId);
        requests == [PostExpense(body)]
        && store.events == old(store.events) + SubmitEvents(old(store.Pending()), body, post.Accepted?)
        && if post.Accepted? then
          r == Saved(body)
          && store.Pending() == Without(old(store.Pending()), clientId)
          && form.amount == "" && form.category == "" && form.description == "" && form.date == today
        else
          r == SaveFailed(FailedText(post))
          && store.Pending() == old(store.Pending()) + [PendingEntry(clientId, body)]
          && unchanged(form)
  {
    var amount := number(form.amount);
    var category := Trim(form.category);
    var description := Trim(form.description);
    var date := form.date;
    var check := CheckInput(date, category, amount);
    if check.Some? {
      return InputRejected(check.value), [];
    }
    var body := Submission(amount.value, category, description, date, clientId);
    requests := [PostExpense(body)];
    var ok := EnqueueAndPost(store, body, post);
    if ok {
      ClearForm(form, today);
      r := Saved(body);
    } else {
      r := SaveFailed(FailedText(post));
    }
  }
}

=== FILE: legacy.dfy ===
/**
 * public/app.js: the single-file client that predates the module split. Its
 * pending store, post, URL building, view aggregates and escaping are the
 * same code as in the modules (the members of Api and Ui model both copies);
 * what differs is modelled here: `flushPending` does not fetch the list
 * itself, the submit handler resets the form to its markup defaults and
 * reloads the list on its own, and `init` sequences the two.
 */
module Legacy {
  import opened Api
  import opened Form
  import opened Startup
  import opened Text

  /** `flushPending`: returns at once when nothing is stored, otherwise runs the replay loop. */
  method FlushPending(store: PendingStore, outcome: nat -> PostOutcome) returns (requests: seq<Request>)
    modifies store
    ensures requests == Posts(old(store.Pending()))
    ensures store.Pending() ==
      WithoutAll(old(store.Pending()), Confirmed(old(store.Pending()), outcome, |old(store.Pending())|))
    ensures old(store.Pending()) == [] ==> requests == [] && store.slot == old(store.slot)
    ensures store.events ==
      old(store.events) + ReplayEvents(old(store.Pending()), old(store.Pending()), outcome, |old(store.Pending())|)
  {
    var pending := store.Load();
    if |pending| == 0 {
      WithoutAllNone(pending);
      return [];
    }
    requests := ReplayPending(store, pending, outcome);
  }

  /** The values `form.reset()` restores: the inputs' defaults in the page markup. */
  datatype FieldDefaults = FieldDefaults(amount: string, category: string, description: string, date: string)

  /** The form's inputs hold exactly the given values. */
  predicate Shows(form: FormFields, values: FieldDefaults)
    reads form
  {
    form.amount == values.amount && form.category == values.category
    && form.description == values.description && form.date == values.date
  }

  /** `form.reset()`: every input returns to its default. */
  method ResetForm(form: FormFields, defaults: FieldDefaults)
    modifies form
    ensures Shows(form, defaults)
  {
    form.amount, form.category, form.description, form.date :=
      defaults.amount, defaults.category, defaults.description, defaults.date;
  }

  /**
   * The submit listener. As in `handleSubmit`, except that on success the
   * form is reset to `defaults` and the list is reloaded here, with the
   * filter's `category` and the `sort` selection.
   */
  method Submit(form: FormFields, store: PendingStore, number: string -> NumberValue, clientId: string,
                post: PostOutcome, defaults: FieldDefaults, category: string, sort: string)
    returns (r: SubmitResult, requests: seq<Request>)
    modifies form, store
    ensures var amount := number(old(form.amount));
      var check := CheckInput(old(form.date), Trim(old(form.category)), amount);
      if check.Some? then
        r == InputRejected(check.value) && requests == []
        && store.slot == old(store.slot) && store.events == old(store.events)
        && unchanged(form)
      else
        var body := BodyOf(amount.value, old(form.category), old(form.description), old(form.date), clientId);
        store.events == old(store.events) + SubmitEvents(old(store.Pending()), body, post.Accepted?)
        && if post.Accepted? then
          r == Saved(body)
          && requests == [PostExpense(body), FetchExpenses(FetchUrl(category, sort))]
          && store.Pending() == Without(old(store.Pending()), clientId)
          && Shows(form, defaults)
        else
          r == SaveFailed(FailedText(post))
          && requests == [PostExpense(body)]
          && store.Pending() == old(store.Pending()) + [PendingEntry(clientId, body)]
          && unchanged(form)
  {
    var amount := number(form.amount);
    var check := CheckInput(form.date, Trim(form.category), amount);
    if check.Some? {
      return InputRejected(check.value), [];
    }
    var body := BodyOf(amount.value, form.category, form.description, form.date, clientId);
    r, requests := SaveAndReload(form, store, body, post, defaults, category, sort);
  }

  /**
   * The part of the submit listener after the checks: queue, post, and on
   * success reset and reload. The store's history gains `SubmitEvents`: the
   * entry is written before the post.
   */
  method SaveAndReload(form: FormFields, store: PendingStore, body: Submission, post: PostOutcome,
                       defaults: FieldDefaults, category: string, sort: string)
    returns (r: SubmitResult, requests: seq<Request>)
    modifies form, store
    ensures store.events == old(store.events) + SubmitEvents(old(store.Pending()), body, post.Accepted?)
    ensures post.Accepted? ==>
      r == Saved(body)
      && requests == [PostExpense(body), FetchExpenses(FetchUrl(category, sort))]
      && store.Pending() == Without(old(store.Pending()), body.clientId)
      && Shows(form, defaults)
    ensures !post.Accepted? ==>
      r == SaveFailed(FailedText(post))
      && requests == [PostExpense(body)]
      && store.Pending() == old(store.Pending()) + [PendingEntry(body.clientId, body)]
      && unchanged(form)
  {
    requests := [PostExpense(body)];
    var ok := EnqueueAndPost(store, body, post);
    if ok {
      ResetForm(form, defaults);
      requests := requests + [FetchExpenses(FetchUrl(category, sort))];
      r := Saved(body);
    } else {
      r := SaveFailed(FailedText(post));
    }
  }

  /**
   * `init`: set the date input to `today`, replay the stored list, then load
   * the list; every replayed post is sent before the one fetch.
   */
  method Init(form: FormFields, store: PendingStore, outcome: nat -> PostOutcome, today: string,
              category: string, sort: string)
    returns (requests: seq<Request>)
    modifies form, store
    ensures form.date == today
    ensures form.amount == old(form.amount) && form.category == old(form.category)
    ensures form.description == old(form.description)
    ensures requests == Posts(old(store.Pending())) + [FetchExpenses(FetchUrl(category, sort))]
    ensures store.Pending() ==
      WithoutAll(old(store.Pending()), Confirmed(old(store.Pending()), outcome, |old(store.Pending())|))
    ensures store.events ==
      old(store.events) + ReplayEvents(old(store.Pending()), old(store.Pending()), outcome, |old(store.Pending())|)
  {
    ghost var pending, events := store.Pending(), store.events;
    form.date := today;
    assert store.Pending() == pending && store.events == events;
    requests := FlushPending(store, outcome);
    requests := requests + [FetchExpenses(FetchUrl(category, sort))];
  }
}

=== FILE: money.dfy ===
/**
 * Rupee amounts and their integer paise representation.
 *
 * The server stores every amount as a whole number of paise (one hundredth of
 * a rupee) and reports it back in rupees. The source does this with IEEE
 * doubles (`Math.round(Number(amount) * 100)` and `amount / 100`); here both
 * directions are exact rational arithmetic, so the model is the idealised
 * behaviour of that float code.
 */
module Money {

  /** `Math.round(100 * rupees)`: the nearest whole number of paise, halves rounded up. */
  function ToPaise(rupees: real): (paise: int)
    ensures paise as real - 0.5 <= 100.0 * rupees < paise as real + 0.5
  {
    (100.0 * rupees + 0.5).Floor
  }

  /** `paise / 100`: the rupee amount a whole number of paise stands for. */
  function ToRupees(paise: int): (rupees: real)
    ensures rupees * 100.0 == paise as real
    ensures ToPaise(rupees) == paise
  {
    paise as real / 100.0
  }

  /** An amount that is a whole number of paise. */
  ghost predicate HasTwoDecimals(rupees: real)
  {
    exists p: int :: rupees == ToRupees(p)
  }

  /** Amounts with at most two fractional digits survive the round trip through paise unchanged. */
  lemma TwoDecimalRoundTrip(rupees: real)
    requires HasTwoDecimals(rupees)
    ensures ToRupees(ToPaise(rupees)) == rupees
  {
    var p: int :| rupees == ToRupees(p);
    assert ToPaise(rupees) == p;
  }

  /** Rounding never moves an amount past the next one: it is monotone. */
  lemma {:induction false} ToPaiseMonotone(x: real, y: real)
    requires x <= y
    ensures ToPaise(x) <= ToPaise(y)
  {
    assert 100.0 * x + 0.5 <= 100.0 * y + 0.5;
  }

  /** A positive amount never rounds to a negative number of paise. */
  lemma PositiveAmountNonNegativePaise(rupees: real)
    requires rupees > 0.0
    ensures ToPaise(rupees) >= 0
  {
    ToPaiseMonotone(0.0, rupees);
    assert ToPaise(0.0) == 0;
  }

  /**
   * The server's only amount check is `amount > 0`, made before rounding:
   * a positive amount below half a paisa, such as 0.004 rupees, passes it
   * and rounds to 0 paise.
   */
  lemma SubHalfPaisaRoundsToZero()
    ensures 0.004 > 0.0 && ToPaise(0.004) == 0
  {
  }

  /** Example: 150.50 rupees are 15050 paise and read back as 150.5. */
  lemma ExampleAmount()
    ensures ToPaise(150.50) == 15050 && ToRupees(15050) == 150.5
    ensures ToPaise(200.0) == 20000
  {
  }
}

=== FILE: optional.dfy ===
/** The optional value used throughout the model for JavaScript's absent/`null`. */
module Optional {

  datatype Option<+T> = None | Some(value: T)
}

=== FILE: server.dfy ===
/**
 * The HTTP handlers of server.js over the SQLite `expenses` table.
 *
 * The table (db.js) is modelled as a map from `id` to row; `amount` is an
 * integer number of paise and `client_id` is UNIQUE (several rows may have no
 * client id, as SQLite allows several NULLs in a UNIQUE column). Each handler
 * is a method of `ExpenseTable` that changes the map the way its SQL
 * statement does and returns the HTTP outcome.
 */
module Server {
  import opened Optional
  import opened Money
  import opened Text

  // ---------------------------------------------------------------------------
  // Requests and their validation
  // ---------------------------------------------------------------------------

  /** What `Number(amount)` makes of the body's `amount` field. */
  datatype AmountField =
    | Missing              // `undefined` or `null`
    | NotANumber           // `Number(amount)` is NaN
    | Number(value: real)  // a finite number

  /**
   * A POST or PUT body after destructuring: `description` has already
   * defaulted to '', and an absent text field is the empty string (both are
   * falsy to the handler's checks).
   */
  datatype ExpenseBody = ExpenseBody(
    amount: AmountField, category: string, description: string, date: string, clientId: string)

  /** The 400 responses, in the order the handlers test for them. */
  datatype Invalid = InvalidAmount | NonPositiveAmount | MissingCategory | MissingDate | InvalidDate
  {
    function Message(): string
    {
      match this
      case InvalidAmount => "Invalid amount"
      case NonPositiveAmount => "Amount must be greater than 0"
      case MissingCategory => "Missing category"
      case MissingDate => "Missing date"
      case InvalidDate => "Invalid date"
    }
  }

  /**
   * The shared validation of POST and PUT: the first failing check, or None.
   * `parses` stands for `!isNaN(new Date(date).getTime())`.
   */
  function Validate(body: ExpenseBody, parses: string -> bool): (r: Option<Invalid>)
    ensures r == None <==>
      body.amount.Number? && body.amount.value > 0.0 && body.category != "" && body.date != "" && parses(body.date)
    ensures r == Some(InvalidAmount) <==> !body.amount.Number?
    ensures r == Some(NonPositiveAmount) <==> body.amount.Number? && body.amount.value <= 0.0
    ensures r == Some(MissingCategory) <==>
      body.amount.Number? && body.amount.value > 0.0 && body.category == ""
    ensures r == Some(MissingDate) <==>
      body.amount.Number? && body.amount.value > 0.0 && body.category != "" && body.date == ""
    ensures r == Some(InvalidDate) <==>
      body.amount.Number? && body.amount.value > 0.0 && body.category != "" && body.date != "" && !parses(body.date)
  {
    if !body.amount.Number? then Some(InvalidAmount)
    else if body.amount.value <= 0.0 then Some(NonPositiveAmount)
    else if body.category == "" then Some(MissingCategory)
    else if body.date == "" then Some(MissingDate)
    else if !parses(body.date) then Some(InvalidDate)
    else None
  }

  /** The idempotency key of a create request: `client_id` when truthy. */
  function ClientKey(body: ExpenseBody): Option<string>
  {
    if body.clientId == "" then None else Some(body.clientId)
  }

  // ---------------------------------------------------------------------------
  // Rows and their JSON form
  // ---------------------------------------------------------------------------

  /** A row of the `expenses` table; `amount` is in paise. */
  datatype Row = Row(
    id: string, amount: int, category: string, description: string, date: string,
    createdAt: string, clientId: Option<string>)

  /** The JSON record `mapRow` sends to clients. */
  datatype Expense = Expense(
    id: string, amount: real, amountPaise: int, category: string, description: string, date: string,
    createdAt: string, clientId: Option<string>)

  /** `mapRow`: the stored row, with the amount also given in rupees. */
  function MapRow(r: Row): (e: Expense)
    ensures e.amountPaise == r.amount && e.amount * 100.0 == r.amount as real
    ensures ToPaise(e.amount) == e.amountPaise
    ensures e.id == r.id && e.category == r.category && e.description == r.description
    ensures e.date == r.date && e.createdAt == r.createdAt && e.clientId == r.clientId
  {
    Expense(r.id, ToRupees(r.amount), r.amount, r.category, r.description, r.date, r.createdAt, r.clientId)
  }

  /** The row the POST handler inserts for a validated body. */
  function NewRow(id: string, body: ExpenseBody, createdAt: string): Row
    requires body.amount.Number?
  {
    Row(id, ToPaise(body.amount.value), body.category, body.description, body.date, createdAt, ClientKey(body))
  }

  /** What the PUT handler's UPDATE makes of a row: four columns change, the rest are kept. */
  function Revised(r: Row, body: ExpenseBody): (r': Row)
    requires body.amount.Number?
    ensures r'.id == r.id && r'.createdAt == r.createdAt && r'.clientId == r.clientId
    ensures r'.amount == ToPaise(body.amount.value) && r'.category == body.category
    ensures r'.description == body.description && r'.date == body.date
  {
    r.(amount := ToPaise(body.amount.value), category := body.category,
       description := body.description, date := body.date)
  }

  // ---------------------------------------------------------------------------
  // Handler outcomes
  // ---------------------------------------------------------------------------

  datatype CreateOutcome =
    | Created(created: Expense)          // 201
    | AlreadyExists(existing: Expense)   // 200: the idempotency key was already stored
    | Rejected(reason: Invalid)          // 400
    | InternalError                      // 500: the INSERT failed for another reason
  {
    function Status(): int
    {
      match this
      case Created(_) => 201
      case AlreadyExists(_) => 200
      case Rejected(_) => 400
      case InternalError => 500
    }
  }

  datatype UpdateOutcome =
    | Updated(updated: Expense)          // 200
    | UpdateRejected(reason: Invalid)    // 400
    | UpdateNotFound                     // 404
  {
    function Status(): int
    {
      match this
      case Updated(_) => 200
      case UpdateRejected(_) => 400
      case UpdateNotFound => 404
    }
  }

  datatype DeleteOutcome = Deleted | DeleteNotFound
  {
    function Status(): int
    {
      if Deleted? then 204 else 404
    }
  }

  // ---------------------------------------------------------------------------
  // Listing
  // ---------------------------------------------------------------------------

  /** `WHERE category = ?` when the filter is truthy, no filter otherwise. */
  predicate Matches(r: Row, category: string)
  {
    category == "" || r.category == category
  }

  /**
   * The SQL text the GET handler builds. Both branches on `sort` append the
   * same ORDER BY, so the text depends on the category filter only.
   */
  function ListSql(category: string, sort: string): (sql: string)
    ensures sql == "SELECT * FROM expenses" + (if category != "" then " WHERE category = ?" else "") + " " + ListOrder
  {
    var base := "SELECT * FROM expenses" + (if category != "" then " WHERE category = ?" else "");
    if sort == "date_desc" then base + (if category != "" then " " else " ") + ListOrder
    else base + (if category != "" then " " else " ") + ListOrder
  }

  const ListOrder := "ORDER BY date DESC, created_at DESC"

  /** `ORDER BY date DESC, created_at DESC`: `a` may be listed before `b`. */
  predicate Precedes(a: Expense, b: Expense)
  {
    BinaryLess(b.date, a.date) || (a.date == b.date && !BinaryLess(a.createdAt, b.createdAt))
  }

  /** The listing order is a total preorder. */
  lemma PrecedesTotalPreorder(a: Expense, b: Expense, c: Expense)
    ensures Precedes(a, b) || Precedes(b, a)
    ensures Precedes(a, b) && Precedes(b, c) ==> Precedes(a, c)
  {
    BinaryOrder(a.date, b.date, c.date);
    BinaryOrder(c.date, b.date, a.date);
    BinaryOrder(a.createdAt, b.createdAt, c.createdAt);
    BinaryOrder(c.createdAt, b.createdAt, a.createdAt);
    BinaryOrder(b.createdAt, a.createdAt, c.createdAt);
    BinaryOrder(a.createdAt, b.createdAt, a.createdAt);
  }

  ghost predicate Ordered(xs: seq<Expense>)
  {
    forall i, j :: 0 <= i < j < |xs| ==> Precedes(xs[i], xs[j])
  }

  /** Where `x` goes in an ordered list: after every element it may not precede. */
  function InsertPos(x: Expense, xs: seq<Expense>): (k: nat)
    ensures k <= |xs|
    ensures forall i :: 0 <= i < k ==> !Precedes(x, xs[i])
    ensures k < |xs| ==> Precedes(x, xs[k])
  {
    if xs == [] || Precedes(x, xs[0]) then 0 else 1 + InsertPos(x, xs[1..])
  }

  lemma InsertKeepsOrder(x: Expense, xs: seq<Expense>)
    requires Ordered(xs)
    ensures var k := InsertPos(x, xs); Ordered(xs[..k] + [x] + xs[k..])
  {
    var k := InsertPos(x, xs);
    var ys := xs[..k] + [x] + xs[k..];
    forall i, j | 0 <= i < j < |ys| ensures Precedes(ys[i], ys[j]) {
      if i < k && j == k {
        PrecedesTotalPreorder(x, xs[i], x);
      } else if i == k && j > k {
        PrecedesTotalPreorder(x, xs[k], xs[j - 1]);
      } else if i < k && j > k {
        assert ys[i] == xs[i] && ys[j] == xs[j - 1];
      }
    }
  }

  function Ids(xs: seq<Expense>): set<string>
  {
    set i | 0 <= i < |xs| :: xs[i].id
  }

  ghost predicate DistinctIds(xs: seq<Expense>)
  {
    forall i, j :: 0 <= i < j < |xs| ==> xs[i].id != xs[j].id
  }

  lemma IdsSnoc(xs: seq<Expense>, x: Expense)
    ensures Ids(xs + [x]) == Ids(xs) + {x.id}
  {
    var ys := xs + [x];
    forall id | id in Ids(ys) ensures id in Ids(xs) + {x.id} {
      var i :| 0 <= i < |ys| && ys[i].id == id;
      if i < |xs| { assert xs[i].id == id; }
    }
    forall id | id in Ids(xs) ensures id in Ids(ys) {
      var i :| 0 <= i < |xs| && xs[i].id == id;
      assert ys[i].id == id;
    }
    assert ys[|xs|].id == x.id;
  }

  /** Distinct ids: as many ids as elements. */
  lemma {:induction false} IdsCount(xs: seq<Expense>)
    requires DistinctIds(xs)
    ensures |Ids(xs)| == |xs|
  {
    if xs != [] {
      var init, x := xs[..|xs| - 1], xs[|xs| - 1];
      assert xs == init + [x];
      IdsCount(init);
      IdsSnoc(init, x);
    }
  }

  /** Where the elements of `xs` land once `x` is inserted at `k`. */
  lemma InsertAtIndex(xs: seq<Expense>, k: nat, x: Expense)
    requires k <= |xs|
    ensures var ys := xs[..k] + [x] + xs[k..];
      |ys| == |xs| + 1 && ys[k] == x
      && (forall i :: 0 <= i < k ==> ys[i] == xs[i])
      && (forall i :: k < i < |ys| ==> ys[i] == xs[i - 1])
  {
  }

  /** Inserting an element with a new id keeps the ids distinct and adds exactly that id. */
  lemma InsertAt(xs: seq<Expense>, k: nat, x: Expense)
    requires k <= |xs| && DistinctIds(xs) && x.id !in Ids(xs)
    ensures var ys := xs[..k] + [x] + xs[k..];
      DistinctIds(ys) && Ids(ys) == Ids(xs) + {x.id} && forall y :: y in ys <==> y == x || y in xs
  {
    var ys := xs[..k] + [x] + xs[k..];
    InsertAtIndex(xs, k, x);
    InsertAtDistinct(xs, k, x);
    forall id | id in Ids(xs) ensures id in Ids(ys) {
      var i :| 0 <= i < |xs| && xs[i].id == id;
      if i < k { assert ys[i].id == id; } else { assert ys[i + 1].id == id; }
    }
    forall id | id in Ids(ys) ensures id in Ids(xs) + {x.id} {
      var i :| 0 <= i < |ys| && ys[i].id == id;
      if i < k { assert xs[i].id == id; } else if i > k { assert xs[i - 1].id == id; }
    }
    assert x.id == ys[k].id;
    InsertAtMembers(xs, k, x);
  }

  lemma InsertAtDistinct(xs: seq<Expense>, k: nat, x: Expense)
    requires k <= |xs| && DistinctIds(xs) && x.id !in Ids(xs)
    ensures DistinctIds(xs[..k] + [x] + xs[k..])
  {
    var ys := xs[..k] + [x] + xs[k..];
    InsertAtIndex(xs, k, x);
    forall i, j | 0 <= i < j < |ys| ensures ys[i].id != ys[j].id {
      if i == k {
        assert ys[j].id == xs[j - 1].id;
      } else if j == k {
        assert ys[i].id == xs[i].id;
      }
    }
  }

  lemma InsertAtMembers(xs: seq<Expense>, k: nat, x: Expense)
    requires k <= |xs|
    ensures forall y :: y in xs[..k] + [x] + xs[k..] <==> y == x || y in xs
  {
    assert xs == xs[..k] + xs[k..];
  }

  // ---------------------------------------------------------------------------
  // The table
  // ---------------------------------------------------------------------------

  class ExpenseTable {
    var rows: map<string, Row>

    /** PRIMARY KEY on `id`, UNIQUE on `client_id`. */
    ghost predicate Valid()
      reads this
    {
      (forall id :: id in rows ==> rows[id].id == id)
      && (forall a, b :: a in rows && b in rows && rows[a].clientId.Some? && rows[a].clientId == rows[b].clientId ==> a == b)
    }

    constructor ()
      ensures Valid() && rows == map[]
    {
      rows := map[];
    }

    ghost predicate HasClientId(key: string)
      reads this
    {
      exists id :: id in rows && rows[id].clientId == Some(key)
    }

    /** The row holding idempotency key `key`. */
    ghost function OwnerOf(key: string): Row
      reads this
      requires HasClientId(key)
    {
      var id :| id in rows && rows[id].clientId == Some(key); rows[id]
    }

    /** `SELECT * FROM expenses WHERE client_id = ?`. */
    method FindByClientId(key: string) returns (found: Option<Row>)
      requires Valid()
      ensures found.Some? <==> HasClientId(key)
      ensures found.Some? ==> found.value == OwnerOf(key) && found.value.clientId == Some(key)
    {
      var ids := rows.Keys;
      while ids != {}
        invariant ids <= rows.Keys
        invariant forall id :: id in rows.Keys - ids ==> rows[id].clientId != Some(key)
        decreases ids
      {
        var id :| id in ids;
        if rows[id].clientId == Some(key) {
          return Some(rows[id]);
        }
        ids := ids - {id};
      }
      return None;
    }

    /**
     * POST /expenses: validate, then return the row that already holds the
     * idempotency key, or insert a new row under the fresh id.
     * `now` is the creation timestamp and `freshId` the generated uuid.
     */
    method Create(body: ExpenseBody, parses: string -> bool, now: string, freshId: string)
      returns (o: CreateOutcome)
      requires Valid()
      modifies this
      ensures Valid()
      ensures Validate(body, parses).Some? ==> o == Rejected(Validate(body, parses).value) && rows == old(rows)
      ensures Validate(body, parses).None? && ClientKey(body).Some? && old(HasClientId(ClientKey(body).value)) ==>
        o == AlreadyExists(MapRow(old(OwnerOf(ClientKey(body).value)))) && rows == old(rows)
      ensures Validate(body, parses).None? && (ClientKey(body).None? || !old(HasClientId(ClientKey(body).value))) ==>
        if freshId in old(rows) then o == InternalError && rows == old(rows)
        else o == Created(MapRow(NewRow(freshId, body, now))) && rows == old(rows)[freshId := NewRow(freshId, body, now)]
    {
      var invalid := Validate(body, parses);
      if invalid.Some? {
        return Rejected(invalid.value);
      }
      var key := ClientKey(body);
      if key.Some? {
        var existing := FindByClientId(key.value);
        if existing.Some? {
          return AlreadyExists(MapRow(existing.value));
        }
      }
      o := Insert(NewRow(freshId, body, now));
    }

    /**
     * The INSERT and its catch block. A row whose id is already stored
     * violates the PRIMARY KEY, which the catch block does not handle: 500.
     * A row whose client id is already stored violates the UNIQUE constraint,
     * and the handler answers with the row that holds it; after the lookup in
     * Create this happens only when another request stored that key in
     * between. For a row that violates both, which constraint SQLite reports
     * is not fixed here: the answer is either of the two, and nothing changes.
     */
    method Insert(row: Row) returns (o: CreateOutcome)
      requires Valid()
      modifies this
      ensures Valid()
      ensures row.id in old(rows) ==> rows == old(rows)
      ensures row.id in old(rows) && (row.clientId.None? || !old(HasClientId(row.clientId.value))) ==>
        o == InternalError
      ensures row.id in old(rows) && row.clientId.Some? && old(HasClientId(row.clientId.value)) ==>
        o == InternalError || o == AlreadyExists(MapRow(old(OwnerOf(row.clientId.value))))
      ensures row.id !in old(rows) && row.clientId.Some? && old(HasClientId(row.clientId.value)) ==>
        o == AlreadyExists(MapRow(old(OwnerOf(row.clientId.value)))) && rows == old(rows)
      ensures row.id !in old(rows) && (row.clientId.None? || !old(HasClientId(row.clientId.value))) ==>
        o == Created(MapRow(row)) && rows == old(rows)[row.id := row]
    {
      if row.id in rows {
        return InternalError;
      }
      if row.clientId.Some? {
        var clash := FindByClientId(row.clientId.value);
        if clash.Some? {
          return AlreadyExists(MapRow(clash.value));
        }
      }
      rows := rows[row.id := row];
      o := Created(MapRow(rows[row.id]));
    }

    /** PUT /expenses/:id: validate, then UPDATE the four columns of the row with that id. */
    method Update(id: string, body: ExpenseBody, parses: string -> bool) returns (o: UpdateOutcome)
      requires Valid()
      modifies this
      ensures Valid()
      ensures Validate(body, parses).Some? ==> o == UpdateRejected(Validate(body, parses).value) && rows == old(rows)
      ensures Validate(body, parses).None? && id !in old(rows) ==> o == UpdateNotFound && rows == old(rows)
      ensures Validate(body, parses).None? && id in old(rows) ==>
        o == Updated(MapRow(Revised(old(rows)[id], body))) && rows == old(rows)[id := Revised(old(rows)[id], body)]
    {
      var invalid := Validate(body, parses);
      if invalid.Some? {
        return UpdateRejected(invalid.value);
      }
      if id !in rows {
        return UpdateNotFound;
      }
      rows := rows[id := Revised(rows[id], body)];
      o := Updated(MapRow(rows[id]));
    }

    /** DELETE /expenses/:id. */
    method Delete(id: string) returns (o: DeleteOutcome)
      requires Valid()
      modifies this
      ensures Valid()
      ensures id in old(rows) ==> o == Deleted && rows == old(rows) - {id}
      ensures id !in old(rows) ==> o == DeleteNotFound && rows == old(rows)
    {
      if id !in rows {
        return DeleteNotFound;
      }
      rows := rows - {id};
      o := Deleted;
    }

    /**
     * GET /expenses?category=&sort=: every row the filter admits, once each,
     * newest date first and newest creation first among equal dates. `sort`
     * does not influence the result (see ListSql). Rows equal in both keys
     * come in an order SQLite leaves unspecified, here whatever order the
     * map's keys are visited in.
     */
    method List(category: string, sort: string) returns (items: seq<Expense>)
      requires Valid()
      ensures Ordered(items)
      ensures forall i :: 0 <= i < |items| ==>
        items[i].id in rows && items[i] == MapRow(rows[items[i].id]) && Matches(rows[items[i].id], category)
      ensures forall i, j :: 0 <= i < j < |items| ==> items[i].id != items[j].id
      ensures Ids(items) == set id | id in rows && Matches(rows[id], category)
      ensures |items| == |Ids(items)|
    {
      items := [];
      var ids := rows.Keys;
      while ids != {}
        invariant ids <= rows.Keys
        invariant Ordered(items) && DistinctIds(items)
        invariant forall x :: x in items ==> x.id in rows && x == MapRow(rows[x.id]) && Matches(rows[x.id], category)
        invariant Ids(items) == MatchingIds(rows, category, rows.Keys - ids)
        decreases ids
      {
        var id :| id in ids;
        assert rows.Keys - (ids - {id}) == (rows.Keys - ids) + {id};
        MatchingIdsAdd(rows, category, rows.Keys - ids, id);
        if Matches(rows[id], category) {
          var e := MapRow(rows[id]);
          var k := InsertPos(e, items);
          InsertKeepsOrder(e, items);
          InsertAt(items, k, e);
          items := items[..k] + [e] + items[k..];
        }
        ids := ids - {id};
      }
      assert rows.Keys - ids == rows.Keys;
      IdsCount(items);
      forall i | 0 <= i < |items|
        ensures items[i].id in rows && items[i] == MapRow(rows[items[i].id]) && Matches(rows[items[i].id], category)
      {
        assert items[i] in items;
      }
    }
  }

  /** The ids among `done` whose rows the filter admits. */
  ghost function MatchingIds(rows: map<string, Row>, category: string, done: set<string>): set<string>
  {
    set id | id in done && id in rows && Matches(rows[id], category)
  }

  lemma MatchingIdsAdd(rows: map<string, Row>, category: string, done: set<string>, id: string)
    requires id in rows
    ensures MatchingIds(rows, category, done + {id}) ==
      MatchingIds(rows, category, done) + (if Matches(rows[id], category) then {id} else {})
  {
  }

  /**
   * An example on an empty table, first part: a create, its
   * replay with the same client id, and the filtered list.
   */
  method ExampleCreate(parses: string -> bool)
    requires parses("2024-01-15")
  {
    var table := new ExpenseTable();
    var body := ExpenseBody(Number(150.50), "food", "", "2024-01-15", "c1");
    var first := table.Create(body, parses, "t1", "id1");
    assert first.Created? && first.created.amount == 150.5 && first.created.amountPaise == 15050;
    var second := table.Create(body, parses, "t2", "id2");
    assert second.AlreadyExists? && second.existing.id == "id1";
    assert table.rows.Keys == {"id1"};
    var listed := table.List("food", "");
    assert Ids(listed) == {"id1"};
    assert |listed| == 1;
  }

  /**
   * Second part: an update of the stored row, its delete, the empty list and
   * a second delete of the same id.
   */
  method ExampleUpdateDelete(parses: string -> bool)
    requires parses("2024-01-15")
  {
    var table := new ExpenseTable();
    var body := ExpenseBody(Number(150.50), "food", "", "2024-01-15", "c1");
    var first := table.Create(body, parses, "t1", "id1");
    var updated := table.Update("id1", body.(amount := Number(200.0)), parses);
    assert updated.Updated? && updated.updated.amountPaise == 20000;
    var gone := table.Delete("id1");
    assert table.rows.Keys == {};
    var empty := table.List("", "");
    assert Ids(empty) == {};
    assert empty == [];
    var again := table.Delete("id1");
    assert gone.Status() == 204 && again.Status() == 404;
  }
}

=== FILE: startup.dfy ===
/**
 * public/js/main.js: on page load, replay every pending submission, then
 * load the list.
 */
module Startup {
  import opened Api
  import opened Form

  /**
   * The client ids of the first `n` snapshot entries whose replay the server
   * accepted; `outcome(i)` is how the post of entry `i` ends.
   */
  function Confirmed(snapshot: seq<PendingEntry>, outcome: nat -> PostOutcome, n: nat): (ids: set<string>)
    requires n <= |snapshot|
    ensures forall id :: id in ids <==>
      exists i :: 0 <= i < n && outcome(i).Accepted? && snapshot[i].clientId == id
  {
    if n == 0 then {}
    else
      var before := Confirmed(snapshot, outcome, n - 1);
      if outcome(n - 1).Accepted? then before + {snapshot[n - 1].clientId} else before
  }

  /**
   * What replaying snapshot entry `i` adds to the store's history, when the
   * store held `stored` before the replay: the post of its body, sent while
   * the store holds `stored` less the ids confirmed so far, and, only if
   * that post was accepted, the write of that list without the entry's id.
   */
  ghost function ReplayStep(stored: seq<PendingEntry>, snapshot: seq<PendingEntry>, outcome: nat -> PostOutcome, i: nat): seq<Event>
    requires i < |snapshot|
  {
    var cur := WithoutAll(stored, Confirmed(snapshot, outcome, i));
    [Posted(snapshot[i].body, cur)] + (if outcome(i).Accepted? then [Wrote(Without(cur, snapshot[i].clientId))] else [])
  }

  /** The history of replaying the first `n` snapshot entries, step after step. */
  ghost function ReplayEvents(stored: seq<PendingEntry>, snapshot: seq<PendingEntry>, outcome: nat -> PostOutcome, n: nat): seq<Event>
    requires n <= |snapshot|
  {
    if n == 0 then [] else ReplayEvents(stored, snapshot, outcome, n - 1) + ReplayStep(stored, snapshot, outcome, n - 1)
  }

  lemma ReplayEventsNext(earlier: seq<Event>, stored: seq<PendingEntry>, snapshot: seq<PendingEntry>,
                         outcome: nat -> PostOutcome, i: nat)
    requires i < |snapshot|
    ensures earlier + ReplayEvents(stored, snapshot, outcome, i) + ReplayStep(stored, snapshot, outcome, i)
      == earlier + ReplayEvents(stored, snapshot, outcome, i + 1)
  {
  }

  /**
   * The replay's promise, read off its history: the list is never written
   * before a post, and every write comes right after the post of a snapshot
   * entry the server accepted and removes exactly that entry's client id
   * from the list that post was sent with. A failed post is followed by no
   * write, so its entry stays queued.
   */
  lemma {:induction false} ReplayWritesFollowAcceptedPosts(stored: seq<PendingEntry>, snapshot: seq<PendingEntry>,
                                                           outcome: nat -> PostOutcome, n: nat)
    requires n <= |snapshot|
    ensures WritesFollowAcceptedPosts(ReplayEvents(stored, snapshot, outcome, n), snapshot, outcome, n)
  {
    if n > 0 {
      ReplayWritesFollowAcceptedPosts(stored, snapshot, outcome, n - 1);
      var before := ReplayEvents(stored, snapshot, outcome, n - 1);
      var step := ReplayStep(stored, snapshot, outcome, n - 1);
      var t := ReplayEvents(stored, snapshot, outcome, n);
      assert t == before + step;
      assert WritesFollowAcceptedPosts(before, snapshot, outcome, n - 1);
      forall k | 0 <= k < |t| && t[k].Wrote?
        ensures AfterAcceptedPost(t, k, snapshot, outcome, n)
      {
        if k < |before| {
          assert t[k] == before[k];
          assert before[k].Wrote?;
          assert AfterAcceptedPost(before, k, snapshot, outcome, n - 1);
          assert t[k - 1] == before[k - 1];
          var i :| 0 <= i < n - 1 && outcome(i).Accepted? && before[k - 1].body == snapshot[i].body
            && before[k].entries == Without(before[k - 1].stored, snapshot[i].clientId);
        } else {
          assert k == |before| + 1 && outcome(n - 1).Accepted?;
          assert t[k] == step[1] && t[k - 1] == step[0];
          assert snapshot[n - 1].body == t[k - 1].body;
        }
      }
    }
  }

  /** Every write in history `t` comes right after an accepted post of one of the first `n` snapshot entries. */
  ghost predicate WritesFollowAcceptedPosts(t: seq<Event>, snapshot: seq<PendingEntry>, outcome: nat -> PostOutcome, n: nat)
    requires n <= |snapshot|
  {
    forall k :: 0 <= k < |t| && t[k].Wrote? ==> AfterAcceptedPost(t, k, snapshot, outcome, n)
  }

  /**
   * The event at `k` of history `t` comes right after the post of one of the
   * first `n` snapshot entries, a post the server accepted, and holds that
   * post's list less the entry's client id.
   */
  ghost predicate AfterAcceptedPost(t: seq<Event>, k: nat, snapshot: seq<PendingEntry>, outcome: nat -> PostOutcome, n: nat)
    requires k < |t| && n <= |snapshot|
  {
    0 < k && t[k - 1].Posted? && t[k].Wrote?
    && (exists i :: 0 <= i < n && outcome(i).Accepted? && t[k - 1].body == snapshot[i].body
                    && t[k].entries == Without(t[k - 1].stored, snapshot[i].clientId))
  }

  /** The number of posts in a history. */
  function PostCount(t: seq<Event>): nat
  {
    if t == [] then 0 else (if t[0].Posted? then 1 else 0) + PostCount(t[1..])
  }

  lemma {:induction false} PostCountAppend(a: seq<Event>, b: seq<Event>)
    ensures PostCount(a + b) == PostCount(a) + PostCount(b)
  {
    if a == [] {
      assert a + b == b;
    } else {
      assert (a + b)[1..] == a[1..] + b;
      PostCountAppend(a[1..], b);
    }
  }

  /** The replay's history holds one post per snapshot entry, whatever the outcomes. */
  lemma {:induction false} ReplayPostsEveryEntry(stored: seq<PendingEntry>, snapshot: seq<PendingEntry>,
                                                 outcome: nat -> PostOutcome, n: nat)
    requires n <= |snapshot|
    ensures PostCount(ReplayEvents(stored, snapshot, outcome, n)) == n
  {
    if n > 0 {
      ReplayPostsEveryEntry(stored, snapshot, outcome, n - 1);
      var step := ReplayStep(stored, snapshot, outcome, n - 1);
      PostCountAppend(ReplayEvents(stored, snapshot, outcome, n - 1), step);
      PostCountAppend(step[..1], step[1..]);
      assert step == step[..1] + step[1..];
    }
  }

  /**
   * The replay loop over a snapshot of the pending list: one post per
   * snapshot entry, in order; after each accepted post the stored list is
   * reloaded and that entry's client id filtered out. A failed post changes
   * nothing and does not stop the loop. The store's history gains exactly
   * `ReplayEvents`, so each removal follows its own accepted post.
   */
  method ReplayPending(store: PendingStore, snapshot: seq<PendingEntry>, outcome: nat -> PostOutcome)
    returns (requests: seq<Request>)
    modifies store
    ensures requests == Posts(snapshot)
    ensures store.Pending() == WithoutAll(old(store.Pending()), Confirmed(snapshot, outcome, |snapshot|))
    ensures Confirmed(snapshot, outcome, |snapshot|) == {} ==> store.slot == old(store.slot)
    ensures store.events == old(store.events) + ReplayEvents(old(store.Pending()), snapshot, outcome, |snapshot|)
  {
    requests := [];
    WithoutAllNone(store.Pending());
    for i := 0 to |snapshot|
      invariant requests == Posts(snapshot[..i])
      invariant store.Pending() == WithoutAll(old(store.Pending()), Confirmed(snapshot, outcome, i))
      invariant Confirmed(snapshot, outcome, i) == {} ==> store.slot == old(store.slot)
      invariant store.events == old(store.events) + ReplayEvents(old(store.Pending()), snapshot, outcome, i)
    {
      var request := ReplayOne(store, old(store.Pending()), snapshot, outcome, i);
      assert snapshot[..i + 1] == snapshot[..i] + [snapshot[i]];
      PostsAppend(snapshot[..i], snapshot[i]);
      requests := requests + [request];
      ReplayEventsNext(old(store.events), old(store.Pending()), snapshot, outcome, i);
    }
    assert snapshot[..|snapshot|] == snapshot;
  }

  /**
   * One pass of the replay loop, with the store holding `stored` less the
   * ids confirmed so far: post entry `i`'s body, and only if that post is
   * accepted reload the list and save it without the entry's client id.
   */
  method ReplayOne(store: PendingStore, ghost stored: seq<PendingEntry>, snapshot: seq<PendingEntry>,
                   outcome: nat -> PostOutcome, i: nat)
    returns (request: Request)
    requires i < |snapshot|
    requires store.Pending() == WithoutAll(stored, Confirmed(snapshot, outcome, i))
    modifies store
    ensures request == PostExpense(snapshot[i].body)
    ensures store.Pending() == WithoutAll(stored, Confirmed(snapshot, outcome, i + 1))
    ensures !outcome(i).Accepted? ==> store.slot == old(store.slot)
    ensures store.events == old(store.events) + ReplayStep(stored, snapshot, outcome, i)
  {
    var p := snapshot[i];
    request := PostExpense(p.body);
    ghost var sent := store.Pending();
    var ok := Post(store, p.body, outcome(i));
    if ok {
      var cur := store.Load();
      WithoutAfterWithoutAll(stored, Confirmed(snapshot, outcome, i), p.clientId);
      store.Save(Without(cur, p.clientId));
      assert store.events == old(store.events) + [Posted(p.body, sent)] + [Wrote(Without(sent, p.clientId))];
    }
  }

  lemma {:induction false} PostsAppend(xs: seq<PendingEntry>, x: PendingEntry)
    ensures Posts(xs + [x]) == Posts(xs) + [PostExpense(x.body)]
  {
  }

  /**
   * `flushPendingAndRefresh`: replay the stored list when it is not empty,
   * then fetch the list with the current filter and sort.
   */
  method FlushPendingAndRefresh(store: PendingStore, outcome: nat -> PostOutcome, category: string, sort: string)
    returns (requests: seq<Request>)
    modifies store
    ensures requests == Posts(old(store.Pending())) + [FetchExpenses(FetchUrl(category, sort))]
    ensures store.Pending() ==
      WithoutAll(old(store.Pending()), Confirmed(old(store.Pending()), outcome, |old(store.Pending())|))
    ensures old(store.Pending()) == [] ==> store.slot == old(store.slot)
    ensures store.events ==
      old(store.events) + ReplayEvents(old(store.Pending()), old(store.Pending()), outcome, |old(store.Pending())|)
  {
    var pending := store.Load();
    requests := [];
    if |pending| > 0 {
      requests := ReplayPending(store, pending, outcome);
    } else {
      WithoutAllNone(pending);
    }
    requests := requests + [FetchExpenses(FetchUrl(category, sort))];
  }

  /** An entry whose replay succeeded is gone from the store afterwards, as is every entry with its client id. */
  lemma ConfirmedEntryRemoved(snapshot: seq<PendingEntry>, outcome: nat -> PostOutcome, stored: seq<PendingEntry>, i: nat)
    requires i < |snapshot| && outcome(i).Accepted?
    ensures forall x :: x in WithoutAll(stored, Confirmed(snapshot, outcome, |snapshot|)) ==>
      x.clientId != snapshot[i].clientId
  {
    assert snapshot[i].clientId in Confirmed(snapshot, outcome, |snapshot|);
  }

  ghost predicate DistinctClientIds(xs: seq<PendingEntry>)
  {
    forall i, j :: 0 <= i < j < |xs| ==> xs[i].clientId != xs[j].clientId
  }

  /**
   * A stored entry none of whose client id's replays succeeded is still
   * stored afterwards: one whose replay failed, or one the snapshot did not
   * contain.
   */
  lemma UnconfirmedEntryKept(snapshot: seq<PendingEntry>, outcome: nat -> PostOutcome, stored: seq<PendingEntry>, x: PendingEntry)
    requires x in stored
    requires forall i :: 0 <= i < |snapshot| && snapshot[i].clientId == x.clientId ==> !outcome(i).Accepted?
    ensures x in WithoutAll(stored, Confirmed(snapshot, outcome, |snapshot|))
  {
  }

  /**
   * When the store holds exactly the snapshot, the replay leaves exactly the
   * entries whose post failed, in their original order.
   */
  lemma {:induction false} ReplayLeavesFailures(snapshot: seq<PendingEntry>, outcome: nat -> PostOutcome)
    requires DistinctClientIds(snapshot)
    ensures WithoutAll(snapshot, Confirmed(snapshot, outcome, |snapshot|))
      == Failures(snapshot, outcome, 0)
  {
    FailuresAreUnconfirmed(snapshot, outcome, 0);
  }

  /** The entries from index `k` on whose post failed, in order. */
  function Failures(snapshot: seq<PendingEntry>, outcome: nat -> PostOutcome, k: nat): (r: seq<PendingEntry>)
    requires k <= |snapshot|
    ensures |r| <= |snapshot| - k
    decreases |snapshot| - k
  {
    if k == |snapshot| then []
    else (if outcome(k).Accepted? then [] else [snapshot[k]]) + Failures(snapshot, outcome, k + 1)
  }

  lemma {:induction false} FailuresAreUnconfirmed(snapshot: seq<PendingEntry>, outcome: nat -> PostOutcome, k: nat)
    requires DistinctClientIds(snapshot)
    requires k <= |snapshot|
    ensures WithoutAll(snapshot[k..], Confirmed(snapshot, outcome, |snapshot|)) == Failures(snapshot, outcome, k)
    decreases |snapshot| - k
  {
    if k < |snapshot| {
      FailuresAreUnconfirmed(snapshot, outcome, k + 1);
      var ids := Confirmed(snapshot, outcome, |snapshot|);
      assert snapshot[k..][1..] == snapshot[k + 1..];
      assert snapshot[k].clientId in ids <==> outcome(k).Accepted?;
    } else {
      assert snapshot[k..] == [];
    }
  }

  /** The page's `init`: set the date input to `today`, then flush and refresh. */
  method Init(form: FormFields, store: PendingStore, outcome: nat -> PostOutcome, today: string,
              category: string, sort: string)
    returns (requests: seq<Request>)
    modifies form, store
    ensures form.date == today
    ensures form.amount == old(form.amount) && form.category == old(form.category)
    ensures form.description == old(form.description)
    ensures requests == Posts(old(store.Pending())) + [FetchExpenses(FetchUrl(category, sort))]
    ensures store.Pending() ==
      WithoutAll(old(store.Pending()), Confirmed(old(store.Pending()), outcome, |old(store.Pending())|))
    ensures store.events ==
      old(store.events) + ReplayEvents(old(store.Pending()), old(store.Pending()), outcome, |old(store.Pending())|)
  {
    ghost var pending, events := store.Pending(), store.events;
    form.date := today;
    assert store.Pending() == pending && store.events == events;
    requests := FlushPendingAndRefresh(store, outcome, category, sort);
    assert store.events == events + ReplayEvents(pending, pending, outcome, |pending|);
  }
}

=== FILE: text.dfy ===
/**
 * String helpers the application relies on from its platforms:
 * JavaScript's `String.prototype.trim`, the orders in which SQLite (BINARY
 * collation) and JavaScript (`Array.prototype.sort` without a comparator)
 * compare strings, and the application/x-www-form-urlencoded serialisation
 * that `URLSearchParams.toString()` performs.
 */
module Text {

  // ---------------------------------------------------------------------------
  // Whitespace and trim
  // ---------------------------------------------------------------------------

  /** JavaScript's WhiteSpace and LineTerminator code points: what `trim` removes. */
  predicate IsJsSpace(c: char)
  {
    c == ' ' || c == '\t' || c == '\n' || c == '\r' || c == '\U{000B}' || c == '\U{000C}'
    || c == '\U{00A0}' || c == '\U{1680}' || ('\U{2000}' <= c <= '\U{200A}')
    || c == '\U{2028}' || c == '\U{2029}' || c == '\U{202F}' || c == '\U{205F}'
    || c == '\U{3000}' || c == '\U{FEFF}'
  }

  /** Every character of `s` from index `i` up to (not including) `j` is whitespace. */
  predicate SpaceBetween(s: string, i: nat, j: nat)
    requires i <= j <= |s|
  {
    forall k :: i <= k < j ==> IsJsSpace(s[k])
  }

  predicate AllSpace(s: string)
  {
    SpaceBetween(s, 0, |s|)
  }

  /** The index of the first character at or after `i` that is not whitespace, or `|s|`. */
  function SkipSpace(s: string, i: nat): (j: nat)
    requires i <= |s|
    ensures i <= j <= |s| && SpaceBetween(s, i, j)
    ensures j < |s| ==> !IsJsSpace(s[j])
    decreases |s| - i
  {
    if i < |s| && IsJsSpace(s[i]) then SkipSpace(s, i + 1) else i
  }

  /** Scanning back from `j`, no lower than `lo`: the index just past the last character that is not whitespace, or `lo`. */
  function SkipSpaceBack(s: string, lo: nat, j: nat): (i: nat)
    requires lo <= j <= |s|
    ensures lo <= i <= j && SpaceBetween(s, i, j)
    ensures lo < i ==> !IsJsSpace(s[i - 1])
    decreases j
  {
    if lo < j && IsJsSpace(s[j - 1]) then SkipSpaceBack(s, lo, j - 1) else j
  }

  /** `s.trim()`: the part of `s` between its leading and its trailing whitespace. */
  function Trim(s: string): (r: string)
    ensures |r| <= |s|
    ensures r == [] <==> AllSpace(s)
    ensures r != [] ==> !IsJsSpace(r[0]) && !IsJsSpace(r[|r| - 1])
    ensures var i := SkipSpace(s, 0);
      i + |r| <= |s| && SpaceBetween(s, 0, i) && SpaceBetween(s, i + |r|, |s|)
      && forall k :: 0 <= k < |r| ==> r[k] == s[i + k]
  {
    var lo := SkipSpace(s, 0);
    var hi := SkipSpaceBack(s, lo, |s|);
    assert lo < hi ==> s[lo..hi][0] == s[lo] && s[lo..hi][hi - lo - 1] == s[hi - 1];
    s[lo..hi]
  }

  /**
   * `Trim` is the one infix with whitespace only before and after it and
   * none at its own ends.
   */
  lemma {:induction false} TrimUnique(a: string, m: string, b: string)
    requires AllSpace(a) && AllSpace(b)
    requires m != [] ==> !IsJsSpace(m[0]) && !IsJsSpace(m[|m| - 1])
    ensures Trim(a + m + b) == m
  {
    var s := a + m + b;
    SpaceAround(a, m, b);
    if m != [] {
      TrimBetween(s, |a|, |a| + |m|);
      var r := Trim(s);
      assert |r| == |m|;
      forall k | 0 <= k < |r| ensures r[k] == m[k] {
        assert r[k] == s[|a| + k];
      }
    }
  }

  /** The parts of `a + m + b` around `m` are whitespace, and `m` sits at `|a|`. */
  lemma SpaceAround(a: string, m: string, b: string)
    requires AllSpace(a) && AllSpace(b)
    ensures |a + m + b| == |a| + |m| + |b|
    ensures SpaceBetween(a + m + b, 0, |a|) && SpaceBetween(a + m + b, |a| + |m|, |a + m + b|)
    ensures forall k :: 0 <= k < |m| ==> (a + m + b)[|a| + k] == m[k]
    ensures m == [] ==> AllSpace(a + m + b)
  {
    var s := a + m + b;
    var n := |a| + |m|;
    forall k | 0 <= k < |a| ensures IsJsSpace(s[k]) { assert s[k] == a[k]; }
    forall k | n <= k < |s| ensures IsJsSpace(s[k]) { assert s[k] == b[k - n]; }
  }

  /** A string with whitespace before `i` and from `j` on, and non-whitespace at `i` and `j - 1`, trims to `s[i..j]`. */
  lemma TrimBetween(s: string, i: nat, j: nat)
    requires i < j <= |s| && SpaceBetween(s, 0, i) && SpaceBetween(s, j, |s|)
    requires !IsJsSpace(s[i]) && !IsJsSpace(s[j - 1])
    ensures |Trim(s)| == j - i && forall k :: 0 <= k < j - i ==> Trim(s)[k] == s[i + k]
  {
    var r := Trim(s);
    assert SkipSpace(s, 0) == i;
    assert j - 1 < i + |r|;
    assert !IsJsSpace(s[i + |r| - 1]);
  }

  // ---------------------------------------------------------------------------
  // Lexicographic order
  // ---------------------------------------------------------------------------

  /** Strict lexicographic order: a proper prefix comes first. */
  predicate LexLess(a: seq<int>, b: seq<int>)
    decreases |a|
  {
    if a == [] then b != []
    else if b == [] then false
    else if a[0] != b[0] then a[0] < b[0]
    else LexLess(a[1..], b[1..])
  }

  lemma {:induction false} LexIrreflexive(a: seq<int>)
    ensures !LexLess(a, a)
  {
    if a != [] {
      LexIrreflexive(a[1..]);
    }
  }

  lemma {:induction false} LexTransitive(a: seq<int>, b: seq<int>, c: seq<int>)
    requires LexLess(a, b) && LexLess(b, c)
    ensures LexLess(a, c)
  {
    if a != [] && a[0] == b[0] && b[0] == c[0] {
      LexTransitive(a[1..], b[1..], c[1..]);
    }
  }

  lemma {:induction false} LexTotal(a: seq<int>, b: seq<int>)
    ensures a == b || LexLess(a, b) || LexLess(b, a)
  {
    if a != [] && b != [] && a[0] == b[0] {
      LexTotal(a[1..], b[1..]);
      if a[1..] == b[1..] {
        assert a == [a[0]] + a[1..] && b == [b[0]] + b[1..];
      }
    }
  }

  lemma LexAsymmetric(a: seq<int>, b: seq<int>)
    ensures !(LexLess(a, b) && LexLess(b, a))
  {
    if LexLess(a, b) && LexLess(b, a) {
      LexTransitive(a, b, a);
      LexIrreflexive(a);
    }
  }

  // ---------------------------------------------------------------------------
  // Encodings of a string as a sequence of numbers
  // ---------------------------------------------------------------------------

  /**
   * The code points of `s`. SQLite's BINARY collation compares UTF-8 bytes;
   * UTF-8 is known to preserve code-point order, a fact this model uses but
   * does not prove, so the comparison is stated on code points.
   */
  function CodePoints(s: string): (r: seq<int>)
    ensures |r| == |s| && forall k :: 0 <= k < |s| ==> r[k] == s[k] as int
  {
    seq(|s|, k requires 0 <= k < |s| => s[k] as int)
  }

  lemma CodePointsInjective(a: string, b: string)
    requires CodePoints(a) == CodePoints(b)
    ensures a == b
  {
    assert forall k :: 0 <= k < |a| ==> a[k] as int == b[k] as int;
  }

  /** The UTF-16 code units of one character: one unit, or a surrogate pair. */
  function Utf16Char(c: char): (r: seq<int>)
    ensures 1 <= |r| <= 2
    ensures |r| == 1 <==> c as int < 0x1_0000
    ensures |r| == 1 ==> r[0] == c as int && !(0xD800 <= r[0] < 0xE000)
    ensures |r| == 2 ==> 0xD800 <= r[0] < 0xDC00 && 0xDC00 <= r[1] < 0xE000
  {
    var n := c as int;
    if n < 0x1_0000 then [n]
    else [0xD800 + (n - 0x1_0000) / 0x400, 0xDC00 + (n - 0x1_0000) % 0x400]
  }

  /** The UTF-16 code units of `s`: what JavaScript strings are made of. */
  function Utf16(s: string): (r: seq<int>)
    ensures |r| >= |s|
  {
    if s == [] then [] else Utf16Char(s[0]) + Utf16(s[1..])
  }

  lemma Utf16CharInjective(c: char, d: char)
    requires Utf16Char(c) == Utf16Char(d)
    ensures c == d
  {
    var n, m := c as int, d as int;
    if n >= 0x1_0000 {
      assert (n - 0x1_0000) / 0x400 == (m - 0x1_0000) / 0x400;
      assert (n - 0x1_0000) % 0x400 == (m - 0x1_0000) % 0x400;
      assert n == 0x1_0000 + 0x400 * ((n - 0x1_0000) / 0x400) + (n - 0x1_0000) % 0x400;
      assert m == 0x1_0000 + 0x400 * ((m - 0x1_0000) / 0x400) + (m - 0x1_0000) % 0x400;
    }
  }

  /** No two strings have the same UTF-16 form. */
  lemma {:induction false} Utf16Injective(a: string, b: string)
    requires Utf16(a) == Utf16(b)
    ensures a == b
  {
    if a != [] && b != [] {
      var ua, ub := Utf16Char(a[0]), Utf16Char(b[0]);
      var u := Utf16(a);
      assert u == ua + Utf16(a[1..]) && u == ub + Utf16(b[1..]);
      assert u[0] == ua[0] == ub[0];
      assert (|ua| == 1) == !(0xD800 <= u[0] < 0xE000);
      assert (|ub| == 1) == !(0xD800 <= u[0] < 0xE000);
      assert ua == u[..|ua|] && ub == u[..|ub|];
      Utf16CharInjective(a[0], b[0]);
      assert Utf16(a[1..]) == u[|ua|..] == Utf16(b[1..]);
      Utf16Injective(a[1..], b[1..]);
      assert a == [a[0]] + a[1..] && b == [b[0]] + b[1..];
    }
  }

  // ---------------------------------------------------------------------------
  // The two string orders the application uses
  // ---------------------------------------------------------------------------

  /** SQLite's BINARY collation on TEXT (UTF-8 byte order, i.e. code point order). */
  predicate BinaryLess(a: string, b: string)
  {
    LexLess(CodePoints(a), CodePoints(b))
  }

  /** JavaScript's default string comparison: UTF-16 code unit order. */
  predicate JsLess(a: string, b: string)
  {
    LexLess(Utf16(a), Utf16(b))
  }

  /** BINARY collation is a strict total order on strings. */
  lemma BinaryOrder(a: string, b: string, c: string)
    ensures !BinaryLess(a, a)
    ensures a == b || BinaryLess(a, b) || BinaryLess(b, a)
    ensures BinaryLess(a, b) && BinaryLess(b, c) ==> BinaryLess(a, c)
  {
    LexIrreflexive(CodePoints(a));
    LexTotal(CodePoints(a), CodePoints(b));
    if CodePoints(a) == CodePoints(b) {
      CodePointsInjective(a, b);
    }
    if BinaryLess(a, b) && BinaryLess(b, c) {
      LexTransitive(CodePoints(a), CodePoints(b), CodePoints(c));
    }
  }

  /** JavaScript's default comparison is a strict total order on strings. */
  lemma JsOrder(a: string, b: string, c: string)
    ensures !JsLess(a, a)
    ensures a == b || JsLess(a, b) || JsLess(b, a)
    ensures JsLess(a, b) && JsLess(b, c) ==> JsLess(a, c)
  {
    LexIrreflexive(Utf16(a));
    LexTotal(Utf16(a), Utf16(b));
    if Utf16(a) == Utf16(b) {
      Utf16Injective(a, b);
    }
    if JsLess(a, b) && JsLess(b, c) {
      LexTransitive(Utf16(a), Utf16(b), Utf16(c));
    }
  }

  // ---------------------------------------------------------------------------
  // application/x-www-form-urlencoded (URLSearchParams.toString)
  // ---------------------------------------------------------------------------

  /** The UTF-8 bytes of one Unicode scalar value. */
  function Utf8(c: char): (r: seq<int>)
    ensures 1 <= |r| <= 4 && forall k :: 0 <= k < |r| ==> 0 <= r[k] < 256
    ensures |r| == 1 <==> c as int < 0x80
  {
    var n := c as int;
    if n < 0x80 then [n]
    else if n < 0x800 then [0xC0 + n / 0x40, 0x80 + n % 0x40]
    else if n < 0x1_0000 then [0xE0 + n / 0x1000, 0x80 + (n / 0x40) % 0x40, 0x80 + n % 0x40]
    else [0xF0 + n / 0x4_0000, 0x80 + (n / 0x1000) % 0x40, 0x80 + (n / 0x40) % 0x40, 0x80 + n % 0x40]
  }

  predicate IsHexUpper(c: char)
  {
    '0' <= c <= '9' || 'A' <= c <= 'F'
  }

  function HexDigit(n: int): (c: char)
    requires 0 <= n < 16
    ensures IsHexUpper(c)
  {
    if n < 10 then '0' + (n as char) else 'A' + ((n - 10) as char)
  }

  /** The characters the form-urlencoded serialiser leaves as they are. */
  predicate IsFormSafe(c: char)
  {
    'a' <= c <= 'z' || 'A' <= c <= 'Z' || '0' <= c <= '9' || c == '*' || c == '-' || c == '.' || c == '_'
  }

  /** `%XY`: one byte as two upper-case hexadecimal digits. */
  function PercentEscape(b: int): (r: string)
    requires 0 <= b < 256
    ensures |r| == 3 && r[0] == '%' && IsHexUpper(r[1]) && IsHexUpper(r[2])
  {
    ['%', HexDigit(b / 16), HexDigit(b % 16)]
  }

  function PercentBytes(bytes: seq<int>): (r: string)
    requires forall k :: 0 <= k < |bytes| ==> 0 <= bytes[k] < 256
    ensures |r| == 3 * |bytes|
    ensures forall k :: 0 <= k < |r| ==> r[k] == '%' || IsHexUpper(r[k])
  {
    if bytes == [] then ""
    else PercentEscape(bytes[0]) + PercentBytes(bytes[1..])
  }

  predicate IsEncodedChar(c: char)
  {
    IsFormSafe(c) || c == '+' || c == '%'
  }

  function FormEncodeChar(c: char): (r: string)
    ensures r != [] && forall k :: 0 <= k < |r| ==> IsEncodedChar(r[k])
    ensures IsFormSafe(c) ==> r == [c]
  {
    if IsFormSafe(c) then [c]
    else if c == ' ' then "+"
    else PercentBytes(Utf8(c))
  }

  /**
   * The form-urlencoded serialisation of one name or value. Its output never
   * contains '&', '=', '?' or '#', so a parameter cannot spill into the next.
   */
  function FormEncode(s: string): (r: string)
    ensures forall k :: 0 <= k < |r| ==> IsEncodedChar(r[k])
    ensures |r| >= |s|
    ensures (forall k :: 0 <= k < |s| ==> IsFormSafe(s[k])) ==> r == s
  {
    if s == [] then "" else FormEncodeChar(s[0]) + FormEncode(s[1..])
  }

  // ---------------------------------------------------------------------------
  // Reading form-urlencoded text back: percent-decoding, then UTF-8 decoding
  // ---------------------------------------------------------------------------

  predicate IsHex(c: char)
  {
    '0' <= c <= '9' || 'A' <= c <= 'F' || 'a' <= c <= 'f'
  }

  function HexValue(c: char): (n: int)
    requires IsHex(c)
    ensures 0 <= n < 16
  {
    if c <= '9' then c as int - '0' as int
    else if c <= 'F' then c as int - 'A' as int + 10
    else c as int - 'a' as int + 10
  }

  lemma HexRoundTrip(n: int)
    requires 0 <= n < 16
    ensures IsHex(HexDigit(n)) && HexValue(HexDigit(n)) == n
  {
  }

  /** The bytes a form-urlencoded string stands for: `%XY` is one byte, '+' a space, any other character its UTF-8 bytes. */
  function PercentDecode(s: string): seq<int>
  {
    if s == [] then []
    else if s[0] == '%' && |s| >= 3 && IsHex(s[1]) && IsHex(s[2]) then
      [16 * HexValue(s[1]) + HexValue(s[2])] + PercentDecode(s[3..])
    else if s[0] == '+' then [0x20] + PercentDecode(s[1..])
    else Utf8(s[0]) + PercentDecode(s[1..])
  }

  /** The UTF-8 bytes of a whole string. */
  function Utf8String(s: string): seq<int>
  {
    if s == [] then [] else Utf8(s[0]) + Utf8String(s[1..])
  }

  /** The length of the UTF-8 sequence a lead byte starts, or 0 for a byte that cannot lead one. */
  function Utf8Length(lead: int): nat
  {
    if 0 <= lead < 0x80 then 1
    else if 0xC0 <= lead < 0xE0 then 2
    else if 0xE0 <= lead < 0xF0 then 3
    else if 0xF0 <= lead < 0xF8 then 4
    else 0
  }

  /** The code point a UTF-8 sequence of one to four bytes carries. */
  function ScalarOf(bs: seq<int>): int
    requires 1 <= |bs| <= 4
  {
    if |bs| == 1 then bs[0]
    else if |bs| == 2 then (bs[0] - 0xC0) * 0x40 + (bs[1] - 0x80)
    else if |bs| == 3 then (bs[0] - 0xE0) * 0x1000 + (bs[1] - 0x80) * 0x40 + (bs[2] - 0x80)
    else (bs[0] - 0xF0) * 0x4_0000 + (bs[1] - 0x80) * 0x1000 + (bs[2] - 0x80) * 0x40 + (bs[3] - 0x80)
  }

  predicate IsScalar(v: int)
  {
    0 <= v < 0xD800 || 0xE000 <= v < 0x11_0000
  }

  /**
   * UTF-8 decoding of the bytes a well-formed encoding produces: a lead byte
   * announces the length and the sequence's value is read off. A byte that
   * cannot lead, a sequence cut off by the end, or a value that is no scalar
   * becomes U+FFFD; continuation bytes are not checked, so other ill-formed
   * input decodes differently from a browser or a server.
   */
  function Utf8Decode(bytes: seq<int>): string
    decreases |bytes|
  {
    if bytes == [] then ""
    else
      var n := Utf8Length(bytes[0]);
      if 0 < n <= |bytes| && IsScalar(ScalarOf(bytes[..n])) then
        [ScalarOf(bytes[..n]) as char] + Utf8Decode(bytes[n..])
      else
        "\U{FFFD}" + Utf8Decode(bytes[1..])
  }

  /** The decoding of a form-urlencoded name or value. */
  function FormDecode(s: string): string
  {
    Utf8Decode(PercentDecode(s))
  }

  /** A string that starts with the escape of `b` reads back as `b`, then the rest. */
  lemma PercentDecodeByte(b: int, t: string)
    requires 0 <= b < 256
    ensures PercentDecode(PercentEscape(b) + t) == [b] + PercentDecode(t)
  {
    var s := PercentEscape(b) + t;
    HexRoundTrip(b / 16);
    HexRoundTrip(b % 16);
    assert s[0] == '%' && s[1] == HexDigit(b / 16) && s[2] == HexDigit(b % 16);
    assert s[3..] == t;
  }

  lemma {:induction false} PercentDecodeBytes(bytes: seq<int>, rest: string)
    requires forall k :: 0 <= k < |bytes| ==> 0 <= bytes[k] < 256
    ensures PercentDecode(PercentBytes(bytes) + rest) == bytes + PercentDecode(rest)
  {
    if bytes == [] {
      assert PercentBytes(bytes) + rest == rest;
    } else {
      var p := PercentBytes(bytes[1..]);
      calc {
        PercentDecode(PercentBytes(bytes) + rest);
        == { PercentBytesCons(bytes, rest); }
        PercentDecode(PercentEscape(bytes[0]) + (p + rest));
        == { PercentDecodeByte(bytes[0], p + rest); }
        [bytes[0]] + PercentDecode(p + rest);
        == { PercentDecodeBytes(bytes[1..], rest); }
        [bytes[0]] + (bytes[1..] + PercentDecode(rest));
        == { assert bytes == [bytes[0]] + bytes[1..]; }
        bytes + PercentDecode(rest);
      }
    }
  }

  lemma PercentBytesCons(bytes: seq<int>, rest: string)
    requires bytes != [] && forall k :: 0 <= k < |bytes| ==> 0 <= bytes[k] < 256
    ensures PercentBytes(bytes) + rest == PercentEscape(bytes[0]) + (PercentBytes(bytes[1..]) + rest)
  {
  }

  lemma PercentDecodeChar(c: char, rest: string)
    ensures PercentDecode(FormEncodeChar(c) + rest) == Utf8(c) + PercentDecode(rest)
  {
    if IsFormSafe(c) {
      assert ([c] + rest)[1..] == rest;
    } else if c == ' ' {
      assert ("+" + rest)[1..] == rest;
    } else {
      PercentDecodeBytes(Utf8(c), rest);
    }
  }

  lemma {:induction false} PercentDecodeFormEncode(s: string)
    ensures PercentDecode(FormEncode(s)) == Utf8String(s)
  {
    if s != [] {
      PercentDecodeChar(s[0], FormEncode(s[1..]));
      PercentDecodeFormEncode(s[1..]);
    }
  }

  /** A character's UTF-8 bytes announce their own length and carry its code point. */
  lemma Utf8Scalar(c: char)
    ensures Utf8Length(Utf8(c)[0]) == |Utf8(c)|
    ensures ScalarOf(Utf8(c)) == c as int
  {
    var n := c as int;
    if 0x800 <= n < 0x1_0000 {
      Utf8Three(n);
    } else if 0x1_0000 <= n {
      Utf8Four(n);
    }
  }

  lemma Utf8Three(n: int)
    requires 0x800 <= n < 0x1_0000
    ensures ScalarOf([0xE0 + n / 0x1000, 0x80 + (n / 0x40) % 0x40, 0x80 + n % 0x40]) == n
  {
    assert n / 0x40 == (n / 0x1000) * 0x40 + (n / 0x40) % 0x40;
  }

  lemma Utf8Four(n: int)
    requires 0x1_0000 <= n < 0x11_0000
    ensures ScalarOf([0xF0 + n / 0x4_0000, 0x80 + (n / 0x1000) % 0x40, 0x80 + (n / 0x40) % 0x40, 0x80 + n % 0x40]) == n
  {
    assert n / 0x40 == (n / 0x1000) * 0x40 + (n / 0x40) % 0x40;
    assert n / 0x1000 == (n / 0x4_0000) * 0x40 + (n / 0x1000) % 0x40;
  }

  lemma Utf8DecodeChar(c: char, rest: seq<int>)
    ensures Utf8Decode(Utf8(c) + rest) == [c] + Utf8Decode(rest)
  {
    var bs := Utf8(c) + rest;
    var n := |Utf8(c)|;
    Utf8Scalar(c);
    assert bs[..n] == Utf8(c) && bs[n..] == rest;
  }

  lemma {:induction false} Utf8DecodeString(s: string)
    ensures Utf8Decode(Utf8String(s)) == s
  {
    if s != [] {
      Utf8DecodeChar(s[0], Utf8String(s[1..]));
      Utf8DecodeString(s[1..]);
      assert s == [s[0]] + s[1..];
    }
  }

  /** Decoding undoes the form-urlencoding of every string. */
  lemma FormDecodeEncode(s: string)
    ensures FormDecode(FormEncode(s)) == s
  {
    PercentDecodeFormEncode(s);
    Utf8DecodeString(s);
  }
}

=== FILE: ui.dfy ===
/**
 * public/js/ui.js: the computations behind the view: HTML escaping, the
 * running total, the per-category summary and the category filter options.
 * The markup they are placed in and the currency formatting (`toFixed`) are
 * not modelled; amounts are exact.
 */
module Ui {
  import opened Optional
  import opened Text
  import opened Server

  // ---------------------------------------------------------------------------
  // escapeHtml
  // ---------------------------------------------------------------------------

  /** `s.replace(/c/g, rep)`. */
  function ReplaceAll(s: string, c: char, rep: string): (r: string)
    ensures forall d :: d != c && d !in rep ==> (d in r <==> d in s)
    ensures c !in rep ==> c !in r
    ensures c !in s ==> r == s
  {
    if s == [] then ""
    else (if s[0] == c then rep else [s[0]]) + ReplaceAll(s[1..], c, rep)
  }

  /** `escapeHtml`: the three global replacements, '&' first. */
  function EscapeHtml(s: string): (r: string)
    ensures '<' !in r && '>' !in r
    ensures '&' !in s && '<' !in s && '>' !in s ==> r == s
  {
    ReplaceAll(ReplaceAll(ReplaceAll(s, '&', "&amp;"), '<', "&lt;"), '>', "&gt;")
  }

  /** A single-pass reference: each character replaced by its entity, or kept. */
  function EscapeChar(c: char): string
  {
    if c == '&' then "&amp;" else if c == '<' then "&lt;" else if c == '>' then "&gt;" else [c]
  }

  function EscapeEach(s: string): string
  {
    if s == [] then "" else EscapeChar(s[0]) + EscapeEach(s[1..])
  }

  lemma {:induction false} ReplaceAllAppend(a: string, b: string, c: char, rep: string)
    ensures ReplaceAll(a + b, c, rep) == ReplaceAll(a, c, rep) + ReplaceAll(b, c, rep)
  {
    if a == [] {
      assert a + b == b;
    } else {
      assert (a + b)[1..] == a[1..] + b;
      ReplaceAllAppend(a[1..], b, c, rep);
    }
  }

  /** Escaping works on each part of a string separately. */
  lemma EscapeHtmlAppend(a: string, b: string)
    ensures EscapeHtml(a + b) == EscapeHtml(a) + EscapeHtml(b)
  {
    ReplaceAllAppend(a, b, '&', "&amp;");
    var a1, b1 := ReplaceAll(a, '&', "&amp;"), ReplaceAll(b, '&', "&amp;");
    ReplaceAllAppend(a1, b1, '<', "&lt;");
    ReplaceAllAppend(ReplaceAll(a1, '<', "&lt;"), ReplaceAll(b1, '<', "&lt;"), '>', "&gt;");
  }

  /** On one character the three passes write at most one entity, which the later passes leave alone. */
  lemma EscapeHtmlChar(c: char)
    ensures EscapeHtml([c]) == EscapeChar(c)
  {
    var a := ReplaceAll([c], '&', "&amp;");
    assert a == (if c == '&' then "&amp;" else [c]) + ReplaceAll([], '&', "&amp;");
    var b := ReplaceAll(a, '<', "&lt;");
    if c == '<' {
      assert b == "&lt;" + ReplaceAll([], '<', "&lt;");
    }
  }

  /**
   * Because '&' is replaced first, the three passes act like one pass that
   * replaces each character on its own: an entity written by a later pass is
   * never escaped again.
   */
  lemma {:induction false} EscapeHtmlIsSinglePass(s: string)
    ensures EscapeHtml(s) == EscapeEach(s)
  {
    if s != [] {
      assert s == [s[0]] + s[1..];
      EscapeHtmlAppend([s[0]], s[1..]);
      EscapeHtmlChar(s[0]);
      EscapeHtmlIsSinglePass(s[1..]);
    }
  }

  /** The HTML parser's reading of the three entities: the inverse of escaping. */
  function Unescape(s: string): string
  {
    if |s| >= 5 && s[..5] == "&amp;" then "&" + Unescape(s[5..])
    else if |s| >= 4 && s[..4] == "&lt;" then "<" + Unescape(s[4..])
    else if |s| >= 4 && s[..4] == "&gt;" then ">" + Unescape(s[4..])
    else if s == [] then ""
    else [s[0]] + Unescape(s[1..])
  }

  /** Escaped text reads back as the original string. */
  lemma {:induction false} UnescapeEscapeHtml(s: string)
    ensures Unescape(EscapeHtml(s)) == s
  {
    EscapeHtmlIsSinglePass(s);
    UnescapeEscapeEach(s);
  }

  lemma {:induction false} UnescapeEscapeEach(s: string)
    ensures Unescape(EscapeEach(s)) == s
  {
    if s != [] {
      var c, t := s[0], s[1..];
      var e := EscapeEach(s);
      assert e == EscapeChar(c) + EscapeEach(t);
      UnescapeEscapeEach(t);
      if c == '&' {
        assert e[..5] == "&amp;" && e[5..] == EscapeEach(t);
        assert Unescape(e) == "&" + Unescape(EscapeEach(t));
      } else if c == '<' {
        assert e[..4] == "&lt;" && e[4..] == EscapeEach(t);
        assert |e| >= 5 ==> e[..5] != "&amp;" by { if |e| >= 5 { assert e[..5][1] == 'l'; } }
        assert Unescape(e) == "<" + Unescape(EscapeEach(t));
      } else if c == '>' {
        assert e[..4] == "&gt;" && e[4..] == EscapeEach(t);
        assert |e| >= 5 ==> e[..5] != "&amp;" by { if |e| >= 5 { assert e[..5][1] == 'g'; } }
        assert e[..4] != "&lt;" by { assert e[..4][1] == 'g'; }
        assert Unescape(e) == ">" + Unescape(EscapeEach(t));
      } else {
        assert e[0] == c && e[1..] == EscapeEach(t);
        assert |e| >= 5 ==> e[..5] != "&amp;" by { if |e| >= 5 { assert e[..5][0] == c; } }
        assert |e| >= 4 ==> e[..4] != "&lt;" && e[..4] != "&gt;" by { if |e| >= 4 { assert e[..4][0] == c; } }
        assert Unescape(e) == [c] + Unescape(EscapeEach(t));
      }
      assert s == [c] + t;
    }
  }

  // ---------------------------------------------------------------------------
  // Totals
  // ---------------------------------------------------------------------------

  /** `items.reduce((s, i) => s + Number(i.amount), 0)`: a left fold. */
  function Total(items: seq<Expense>): real
  {
    if items == [] then 0.0 else Total(items[..|items| - 1]) + items[|items| - 1].amount
  }

  /** The sum of the items' integer paise amounts. */
  function PaiseTotal(items: seq<Expense>): int
  {
    if items == [] then 0 else PaiseTotal(items[..|items| - 1]) + items[|items| - 1].amountPaise
  }

  /** For records as `mapRow` sends them, the rupee total is exactly the paise total over 100. */
  lemma {:induction false} TotalIsPaiseTotal(items: seq<Expense>)
    requires forall i :: 0 <= i < |items| ==> items[i].amount * 100.0 == items[i].amountPaise as real
    ensures Total(items) * 100.0 == PaiseTotal(items) as real
  {
    if items != [] {
      TotalIsPaiseTotal(items[..|items| - 1]);
    }
  }

  lemma {:induction false} TotalAppend(xs: seq<Expense>, ys: seq<Expense>)
    ensures Total(xs + ys) == Total(xs) + Total(ys)
    decreases |ys|
  {
    if ys == [] {
      assert xs + ys == xs;
    } else {
      var init := ys[..|ys| - 1];
      assert (xs + ys)[..|xs + ys| - 1] == xs + init;
      TotalAppend(xs, init);
    }
  }

  // ---------------------------------------------------------------------------
  // Categories
  // ---------------------------------------------------------------------------

  /** The items' categories, in item order. */
  function CategoryList(items: seq<Expense>): (cs: seq<string>)
    ensures |cs| == |items| && forall i :: 0 <= i < |items| ==> cs[i] == items[i].category
  {
    seq(|items|, i requires 0 <= i < |items| => items[i].category)
  }

  ghost predicate Distinct(xs: seq<string>)
  {
    forall i, j :: 0 <= i < j < |xs| ==> xs[i] != xs[j]
  }

  /** `Array.from(new Set(xs))`: first occurrences, in order. */
  function Dedup(xs: seq<string>): (r: seq<string>)
    ensures Distinct(r)
    ensures forall x :: x in r <==> x in xs
  {
    if xs == [] then []
    else
      var d := Dedup(xs[..|xs| - 1]);
      var x := xs[|xs| - 1];
      assert forall y :: y in xs <==> y in xs[..|xs| - 1] || y == x by {
        assert xs == xs[..|xs| - 1] + [x];
      }
      if x in d then d else d + [x]
  }

  /** Deduplicating one more element appends it exactly when it is new. */
  lemma DedupSnoc(xs: seq<string>, x: string)
    ensures Dedup(xs + [x]) == if x in Dedup(xs) then Dedup(xs) else Dedup(xs) + [x]
  {
    assert (xs + [x])[..|xs|] == xs;
  }

  /** The items' amounts for one category, summed left to right. */
  function CategoryTotal(items: seq<Expense>, category: string): real
  {
    if items == [] then 0.0
    else
      var last := items[|items| - 1];
      CategoryTotal(items[..|items| - 1], category) + (if last.category == category then last.amount else 0.0)
  }

  // ---------------------------------------------------------------------------
  // Sorting (Array.prototype.sort without a comparator)
  // ---------------------------------------------------------------------------

  ghost predicate SortedJs(xs: seq<string>)
  {
    forall i, j :: 0 <= i < j < |xs| ==> !JsLess(xs[j], xs[i])
  }

  ghost predicate StrictlySortedJs(xs: seq<string>)
  {
    forall i, j :: 0 <= i < j < |xs| ==> JsLess(xs[i], xs[j])
  }

  /** Where `x` goes in a sorted list: before the first element it is not greater than. */
  function InsertPos(x: string, xs: seq<string>): (k: nat)
    ensures k <= |xs|
    ensures forall i :: 0 <= i < k ==> JsLess(xs[i], x)
    ensures k < |xs| ==> !JsLess(xs[k], x)
  {
    if xs == [] || !JsLess(xs[0], x) then 0 else 1 + InsertPos(x, xs[1..])
  }

  lemma InsertSorted(x: string, xs: seq<string>)
    requires SortedJs(xs)
    ensures var k := InsertPos(x, xs); SortedJs(xs[..k] + [x] + xs[k..])
  {
    var k := InsertPos(x, xs);
    var ys := xs[..k] + [x] + xs[k..];
    forall i, j | 0 <= i < j < |ys| ensures !JsLess(ys[j], ys[i]) {
      if i < k && j == k {
        JsOrder(xs[i], x, xs[i]);
      } else if i == k && j > k {
        JsOrder(xs[j - 1], xs[k], x);
        JsOrder(xs[k], xs[j - 1], x);
      } else if i < k && j > k {
        assert ys[i] == xs[i] && ys[j] == xs[j - 1];
      }
    }
  }

  /** Inserting `x` into `s` at position `k` adds exactly one `x`. */
  function InsertAt(s: seq<string>, k: nat, x: string): (r: seq<string>)
    requires k <= |s|
    ensures multiset(r) == multiset(s) + multiset{x}
    ensures |r| == |s| + 1 && r[k] == x
    ensures forall i :: 0 <= i < k ==> r[i] == s[i]
    ensures forall i :: k < i < |r| ==> r[i] == s[i - 1]
  {
    assert s == s[..k] + s[k..];
    s[..k] + [x] + s[k..]
  }

  /** `xs.sort()`: insertion of each element, in turn, into the sorted prefix. */
  function SortStrings(xs: seq<string>): (r: seq<string>)
    ensures multiset(r) == multiset(xs)
  {
    if xs == [] then []
    else
      var s := SortStrings(xs[..|xs| - 1]);
      SnocMultiset(xs);
      InsertAt(s, InsertPos(xs[|xs| - 1], s), xs[|xs| - 1])
  }

  lemma SnocMultiset(xs: seq<string>)
    requires xs != []
    ensures multiset(xs) == multiset(xs[..|xs| - 1]) + multiset{xs[|xs| - 1]}
  {
    assert xs == xs[..|xs| - 1] + [xs[|xs| - 1]];
  }

  lemma {:induction false} SortStringsMembers(xs: seq<string>)
    ensures forall x :: x in SortStrings(xs) <==> x in xs
  {
    var r := SortStrings(xs);
    assert forall x :: x in r <==> x in multiset(r);
    assert forall x :: x in xs <==> x in multiset(xs);
  }

  /** The sort's result is in JavaScript's default order. */
  lemma {:induction false} SortStringsSorted(xs: seq<string>)
    ensures SortedJs(SortStrings(xs))
  {
    if xs != [] {
      var s := SortStrings(xs[..|xs| - 1]);
      SortStringsSorted(xs[..|xs| - 1]);
      InsertSorted(xs[|xs| - 1], s);
    }
  }

  /** Sorting a list without repeats gives a list without repeats. */
  lemma {:induction false} SortStringsDistinct(xs: seq<string>)
    requires Distinct(xs)
    ensures Distinct(SortStrings(xs))
  {
    if xs != [] {
      var init, x := xs[..|xs| - 1], xs[|xs| - 1];
      var s := SortStrings(init);
      SortStringsDistinct(init);
      SortStringsMembers(init);
      assert x !in init;
      InsertNewDistinct(s, InsertPos(x, s), x);
    }
  }

  /** Inserting an element not yet present keeps a list free of repeats. */
  lemma InsertNewDistinct(s: seq<string>, k: nat, x: string)
    requires k <= |s| && Distinct(s) && x !in s
    ensures Distinct(InsertAt(s, k, x))
  {
    var r := InsertAt(s, k, x);
    forall i, j | 0 <= i < j < |r| ensures r[i] != r[j] {
      if i == k {
        assert r[j] == s[j - 1];
      } else if j == k {
        assert r[i] == s[i];
      }
    }
  }

  /** A sorted list without repeats is in strictly increasing order. */
  lemma SortDistinct(xs: seq<string>)
    requires Distinct(xs)
    ensures StrictlySortedJs(SortStrings(xs))
  {
    var r := SortStrings(xs);
    SortStringsSorted(xs);
    SortStringsDistinct(xs);
    forall i, j | 0 <= i < j < |r| ensures JsLess(r[i], r[j]) {
      JsOrder(r[i], r[j], r[i]);
    }
  }

  /** A sorted list starts with an element no other element is below. */
  lemma SortedHead(a: seq<string>, y: string)
    requires SortedJs(a) && y in a
    ensures !JsLess(y, a[0])
  {
    var j :| 0 <= j < |a| && a[j] == y;
    if j > 0 {
      assert !JsLess(a[j], a[0]);
    } else {
      JsOrder(y, y, y);
    }
  }

  lemma SortedTail(a: seq<string>)
    requires a != [] && SortedJs(a)
    ensures SortedJs(a[1..])
  {
    assert forall i :: 0 <= i < |a| - 1 ==> a[1..][i] == a[i + 1];
  }

  lemma TailMultiset(a: seq<string>, b: seq<string>)
    requires a != [] && b != [] && a[0] == b[0] && multiset(a) == multiset(b)
    ensures multiset(a[1..]) == multiset(b[1..])
  {
    assert a == [a[0]] + a[1..] && b == [b[0]] + b[1..];
    assert multiset(a[1..]) == multiset(a) - multiset{a[0]};
    assert multiset(b[1..]) == multiset(b) - multiset{b[0]};
  }

  /** Any two orderings of the same strings in JavaScript's order are the same list. */
  lemma {:induction false} SortedUnique(a: seq<string>, b: seq<string>)
    requires multiset(a) == multiset(b) && SortedJs(a) && SortedJs(b)
    ensures a == b
    decreases |a|
  {
    if a != [] {
      assert |b| == |multiset(b)| == |a|;
      var x, y := a[0], b[0];
      assert x in multiset(b) && y in multiset(a);
      SortedHead(a, y);
      SortedHead(b, x);
      JsOrder(x, y, x);
      TailMultiset(a, b);
      SortedTail(a);
      SortedTail(b);
      SortedUnique(a[1..], b[1..]);
    }
  }

  /**
   * The category list of `populateFilterOptions`,
   * `Array.from(new Set(items.map(i => i.category))).sort()`: every category
   * of the items exactly once, in increasing order.
   */
  function FilterCategories(items: seq<Expense>): (cs: seq<string>)
    ensures StrictlySortedJs(cs) && Distinct(cs)
    ensures forall c :: c in cs <==> exists i :: 0 <= i < |items| && items[i].category == c
  {
    var d := Dedup(CategoryList(items));
    SortDistinct(d);
    SortStringsDistinct(d);
    SortStringsMembers(d);
    SortStrings(d)
  }

  /** In a list without repeats every element occurs once. */
  lemma {:induction false} DistinctCount(xs: seq<string>, x: string)
    requires Distinct(xs)
    ensures multiset(xs)[x] == if x in xs then 1 else 0
  {
    if xs != [] {
      var init := xs[..|xs| - 1];
      assert xs == init + [xs[|xs| - 1]];
      DistinctCount(init, x);
    }
  }

  /**
   * The category list is the only list in increasing order holding exactly
   * the items' categories: whichever sorting algorithm the engine uses gives
   * this list.
   */
  lemma FilterCategoriesUnique(items: seq<Expense>, cs: seq<string>)
    requires StrictlySortedJs(cs)
    requires forall c :: c in cs <==> exists i :: 0 <= i < |items| && items[i].category == c
    ensures cs == FilterCategories(items)
  {
    var fs := FilterCategories(items);
    assert Distinct(cs) && SortedJs(cs) by {
      forall i, j | 0 <= i < j < |cs| ensures cs[i] != cs[j] && !JsLess(cs[j], cs[i]) {
        JsOrder(cs[i], cs[j], cs[i]);
      }
    }
    assert SortedJs(fs) by {
      forall i, j | 0 <= i < j < |fs| ensures !JsLess(fs[j], fs[i]) {
        JsOrder(fs[i], fs[j], fs[i]);
      }
    }
    forall x ensures multiset(cs)[x] == multiset(fs)[x] {
      DistinctCount(cs, x);
      DistinctCount(fs, x);
    }
    assert multiset(cs) == multiset(fs);
    SortedUnique(cs, fs);
  }

  /** One `<option>`: its value and its label. */
  datatype FilterOption = FilterOption(value: string, text: string)

  /** The text before the first '"', which is where a double-quoted attribute value ends. */
  function BeforeQuote(s: string): (r: string)
    ensures '"' !in r && r <= s
    ensures '"' !in s ==> r == s
    ensures |r| < |s| ==> s[|r|] == '"'
  {
    if s == [] || s[0] == '"' then [] else [s[0]] + BeforeQuote(s[1..])
  }

  /**
   * The value the browser reads from `value="${escapeHtml(c)}"`: the markup
   * up to the first '"', with its entities read back. `escapeHtml` leaves '"'
   * alone, so a quote in the category ends the attribute early.
   */
  function OptionValue(c: string): string
  {
    Unescape(BeforeQuote(EscapeHtml(c)))
  }

  /**
   * The options `populateFilterOptions` writes: "All" with an empty value,
   * then one per category, labelled with the category and valued with what
   * the browser reads from the attribute.
   */
  function FilterOptions(items: seq<Expense>): (opts: seq<FilterOption>)
    ensures var cs := FilterCategories(items);
      |opts| == |cs| + 1 && opts[0] == FilterOption("", "All")
      && forall i :: 0 <= i < |cs| ==> opts[i + 1] == FilterOption(BeforeQuote(cs[i]), cs[i])
  {
    var cs := FilterCategories(items);
    OptionValuesCut(cs);
    [FilterOption("", "All")] + seq(|cs|, i requires 0 <= i < |cs| => FilterOption(OptionValue(cs[i]), Unescape(EscapeHtml(cs[i]))))
  }

  lemma OptionValuesCut(cs: seq<string>)
    ensures forall i :: 0 <= i < |cs| ==> OptionValue(cs[i]) == BeforeQuote(cs[i]) && Unescape(EscapeHtml(cs[i])) == cs[i]
  {
    forall i | 0 <= i < |cs| ensures OptionValue(cs[i]) == BeforeQuote(cs[i]) && Unescape(EscapeHtml(cs[i])) == cs[i] {
      OptionValueIsBeforeQuote(cs[i]);
      UnescapeEscapeHtml(cs[i]);
    }
  }

  /**
   * An option's value is its category cut at the first '"', so it is the
   * category exactly when the category has no '"'.
   */
  lemma OptionValueIsBeforeQuote(c: string)
    ensures OptionValue(c) == BeforeQuote(c)
    ensures OptionValue(c) == c <==> '"' !in c
  {
    EscapeHtmlIsSinglePass(c);
    BeforeQuoteEscape(c);
    UnescapeEscapeEach(BeforeQuote(c));
  }

  /** Escaping writes no '"' and keeps every '"', so cutting commutes with it. */
  lemma {:induction false} BeforeQuoteEscape(c: string)
    ensures BeforeQuote(EscapeEach(c)) == EscapeEach(BeforeQuote(c))
  {
    if c != [] {
      var e, t := EscapeChar(c[0]), EscapeEach(c[1..]);
      assert EscapeEach(c) == e + t;
      if c[0] == '"' {
        assert (e + t)[0] == '"';
      } else {
        assert '"' !in e;
        BeforeQuoteEscape(c[1..]);
        BeforeQuoteAppend(e, t);
        assert BeforeQuote(c) == [c[0]] + BeforeQuote(c[1..]);
        EscapeEachCons(c[0], BeforeQuote(c[1..]));
      }
    }
  }

  lemma EscapeEachCons(c: char, t: string)
    ensures EscapeEach([c] + t) == EscapeChar(c) + EscapeEach(t)
  {
    assert ([c] + t)[1..] == t;
  }

  lemma {:induction false} BeforeQuoteAppend(a: string, b: string)
    requires '"' !in a
    ensures BeforeQuote(a + b) == a + BeforeQuote(b)
  {
    if a != [] {
      assert (a + b)[1..] == a[1..] + b;
      BeforeQuoteAppend(a[1..], b);
    } else {
      assert a + b == b;
    }
  }

  /** A category with a quote gets a shorter value: the option for `a"b` filters by `a`. */
  lemma QuotedCategoryValue()
    ensures OptionValue("a\"b") == "a"
  {
    OptionValueIsBeforeQuote("a\"b");
  }

  // ---------------------------------------------------------------------------
  // renderSummary
  // ---------------------------------------------------------------------------

  /**
   * The accumulation loop of `renderSummary`. A JavaScript object is a map
   * together with the order its keys were added in, which `keys` records.
   */
  method CategoryTotals(items: seq<Expense>) returns (totals: map<string, real>, keys: seq<string>)
    ensures keys == Dedup(CategoryList(items))
    ensures forall k :: k in totals <==> k in keys
    ensures forall k :: k in totals ==> totals[k] == CategoryTotal(items, k)
  {
    totals, keys := map[], [];
    assert items[..|items|] == items;
    for n := 0 to |items|
      invariant keys == Dedup(CategoryList(items[..n]))
      invariant forall k :: k in totals <==> k in keys
      invariant forall k :: k in totals ==> totals[k] == CategoryTotal(items[..n], k)
    {
      var c := items[n].category;
      KeysStep(items, n, keys);
      TotalsStep(items, n, totals, keys);
      totals, keys := AddTo(totals, c, items[n].amount), WithKey(keys, c);
    }
  }

  /** `totals[c] = (totals[c] || 0) + amount`. */
  function AddTo(totals: map<string, real>, c: string, amount: real): (r: map<string, real>)
    ensures r.Keys == totals.Keys + {c}
    ensures r[c] == (if c in totals then totals[c] else 0.0) + amount
    ensures forall k :: k in totals && k != c ==> r[k] == totals[k]
  {
    totals[c := (if c in totals then totals[c] else 0.0) + amount]
  }

  /** The key order after assigning to key `c`, as insertion order (the order the model keeps): a new key goes last. */
  function WithKey(keys: seq<string>, c: string): (r: seq<string>)
    ensures forall k :: k in r <==> k in keys || k == c
  {
    if c in keys then keys else keys + [c]
  }

  /** The key list after one more item: its category is added when new. */
  lemma KeysStep(items: seq<Expense>, n: nat, keys: seq<string>)
    requires n < |items| && keys == Dedup(CategoryList(items[..n]))
    ensures WithKey(keys, items[n].category) == Dedup(CategoryList(items[..n + 1]))
  {
    var xs, it := items[..n], items[n];
    assert items[..n + 1] == xs + [it];
    CategoryStep(xs, it);
    DedupSnoc(CategoryList(xs), it.category);
  }

  /** The totals after one more item: its amount is added to its category's total. */
  lemma TotalsStep(items: seq<Expense>, n: nat, totals: map<string, real>, keys: seq<string>)
    requires n < |items|
    requires forall k :: k in totals ==> totals[k] == CategoryTotal(items[..n], k)
    requires keys == Dedup(CategoryList(items[..n])) && forall k :: k in totals <==> k in keys
    ensures var r := AddTo(totals, items[n].category, items[n].amount);
      forall k :: k in r ==> r[k] == CategoryTotal(items[..n + 1], k)
  {
    var xs, it := items[..n], items[n];
    assert items[..n + 1] == xs + [it];
    var c := it.category;
    CategoryStep(xs, it);
    if c !in totals {
      CategoryTotalAbsent(xs, c);
    }
  }

  /** How one more item changes the category list and every category total. */
  lemma CategoryStep(xs: seq<Expense>, it: Expense)
    ensures CategoryList(xs + [it]) == CategoryList(xs) + [it.category]
    ensures forall k ::
              CategoryTotal(xs + [it], k) == CategoryTotal(xs, k) + (if it.category == k then it.amount else 0.0)
  {
    assert (xs + [it])[..|xs|] == xs;
  }

  /** A category no item carries has total zero. */
  lemma {:induction false} CategoryTotalAbsent(items: seq<Expense>, category: string)
    requires category !in CategoryList(items)
    ensures CategoryTotal(items, category) == 0.0
  {
    if items != [] {
      var init := items[..|items| - 1];
      assert CategoryList(items) == CategoryList(init) + [items[|items| - 1].category];
      CategoryTotalAbsent(init, category);
    }
  }

  /** One summary line: a category and its total. */
  datatype SummaryLine = SummaryLine(category: string, total: real)

  datatype Summary = NoExpenses | Lines(lines: seq<SummaryLine>)

  /**
   * `renderSummary`: one line per category in sorted key order with that
   * category's total, or "No expenses" when there are no items.
   */
  method RenderSummary(items: seq<Expense>) returns (s: Summary)
    ensures s == NoExpenses <==> items == []
    ensures s.Lines? ==> var cs := FilterCategories(items);
      |s.lines| == |cs| && forall i :: 0 <= i < |cs| ==> s.lines[i] == SummaryLine(cs[i], CategoryTotal(items, cs[i]))
  {
    var totals, keys := CategoryTotals(items);
    var sorted := SortStrings(keys);
    SortStringsMembers(keys);
    if sorted == [] {
      return NoExpenses;
    }
    s := Lines(seq(|sorted|, i requires 0 <= i < |sorted| => SummaryLine(sorted[i], totals[sorted[i]])));
  }

  /** The sum of `CategoryTotal` over a list of categories. */
  function SumOver(categories: seq<string>, items: seq<Expense>): real
  {
    if categories == [] then 0.0 else CategoryTotal(items, categories[0]) + SumOver(categories[1..], items)
  }

  lemma {:induction false} SumOverNoItems(categories: seq<string>)
    ensures SumOver(categories, []) == 0.0
  {
    if categories != [] {
      SumOverNoItems(categories[1..]);
    }
  }

  lemma {:induction false} SumOverSnoc(categories: seq<string>, items: seq<Expense>, x: Expense)
    requires Distinct(categories)
    ensures SumOver(categories, items + [x]) ==
      SumOver(categories, items) + (if x.category in categories then x.amount else 0.0)
  {
    if categories != [] {
      assert (items + [x])[..|items + [x]| - 1] == items;
      SumOverSnoc(categories[1..], items, x);
      assert x.category in categories <==> x.category == categories[0] || x.category in categories[1..];
    }
  }

  /** Over distinct categories that cover every item, the category totals add up to the running total. */
  lemma {:induction false} SumOverCovers(categories: seq<string>, items: seq<Expense>)
    requires Distinct(categories)
    requires forall i :: 0 <= i < |items| ==> items[i].category in categories
    ensures SumOver(categories, items) == Total(items)
  {
    if items == [] {
      SumOverNoItems(categories);
    } else {
      var init, x := items[..|items| - 1], items[|items| - 1];
      assert items == init + [x];
      SumOverCovers(categories, init);
      SumOverSnoc(categories, init, x);
    }
  }

  /** The summary's category totals add up to the running total of the same items. */
  lemma SummaryAddsUpToTotal(items: seq<Expense>)
    ensures SumOver(FilterCategories(items), items) == Total(items)
  {
    var cs := FilterCategories(items);
    forall i | 0 <= i < |items| ensures items[i].category in cs {
    }
    SumOverCovers(cs, items);
  }

  // ---------------------------------------------------------------------------
  // renderSummary as written: the accumulator `{}` inherits from Object.prototype
  // ---------------------------------------------------------------------------

  /** The names a fresh `{}` inherits from Object.prototype. */
  const InheritedNames: set<string> := {
    "constructor", "hasOwnProperty", "isPrototypeOf", "propertyIsEnumerable", "toLocaleString",
    "toString", "valueOf", "__defineGetter__", "__defineSetter__", "__lookupGetter__",
    "__lookupSetter__", "__proto__"}

  /**
   * A value in the accumulator: a number, or the text JavaScript makes when a
   * number is added to an inherited function or object, which `formatRupee`
   * shows as "₹NaN".
   */
  datatype Cell = Num(value: real) | Garbled

  /** The accumulator: its own keys with their values, and the order the keys were added in. */
  datatype Accumulator = Accumulator(own: map<string, Cell>, keys: seq<string>)

  /**
   * `map[c] = (map[c] || 0) + Number(amount)` on an object made by `{}`. An
   * own key starts from its value; a missing key reads the inherited member,
   * which is truthy and no number, or else `undefined`, which `|| 0` turns
   * into 0. Assigning text to `__proto__` changes nothing.
   */
  function AddToAsWritten(acc: Accumulator, c: string, amount: real): (r: Accumulator)
    ensures c != "__proto__" ==> c in r.own
    ensures c in InheritedNames && c !in acc.own && c != "__proto__" ==> r.own[c] == Garbled
    ensures forall k :: k != c ==> (k in r.own <==> k in acc.own)
  {
    var current := if c in acc.own then acc.own[c] else if c in InheritedNames then Garbled else Num(0.0);
    var next := if current.Num? then Num(current.value + amount) else Garbled;
    if c == "__proto__" then acc
    else Accumulator(acc.own[c := next], if c in acc.own then acc.keys else acc.keys + [c])
  }

  /** The accumulator after the loop over `items`; `__proto__` never becomes an own key. */
  function AccumulateAsWritten(items: seq<Expense>): (acc: Accumulator)
    ensures forall k :: k in acc.own <==> k in acc.keys
    ensures "__proto__" !in acc.own
  {
    if items == [] then Accumulator(map[], [])
    else
      var last := items[|items| - 1];
      AddToAsWritten(AccumulateAsWritten(items[..|items| - 1]), last.category, last.amount)
  }

  /** One summary line as rendered: a category and how its value is shown. */
  datatype ShownLine = ShownLine(category: string, value: Cell)

  /**
   * The summary as the source renders it: the accumulator's own keys in
   * sorted order with their values; no line means "No expenses".
   */
  function SummaryAsWritten(items: seq<Expense>): (lines: seq<ShownLine>)
    ensures var acc := AccumulateAsWritten(items);
      forall i :: 0 <= i < |lines| ==> lines[i].category in acc.own && lines[i].value == acc.own[lines[i].category]
  {
    var acc := AccumulateAsWritten(items);
    var ks := SortStrings(acc.keys);
    SortStringsMembers(acc.keys);
    seq(|ks|, i requires 0 <= i < |ks| => ShownLine(ks[i], acc.own[ks[i]]))
  }

  /** Away from the inherited names, the accumulator holds exactly the category totals. */
  lemma {:induction false} AsWrittenOwnCategory(items: seq<Expense>, c: string)
    requires c !in InheritedNames
    ensures c in AccumulateAsWritten(items).own <==> c in CategoryList(items)
    ensures c in AccumulateAsWritten(items).own ==> AccumulateAsWritten(items).own[c] == Num(CategoryTotal(items, c))
  {
    if items != [] {
      var init, last := items[..|items| - 1], items[|items| - 1];
      assert items == init + [last];
      CategoryStep(init, last);
      AsWrittenOwnCategory(init, c);
      if c == last.category && c !in AccumulateAsWritten(init).own {
        CategoryTotalAbsent(init, c);
      }
    }
  }

  /** A category named after an inherited member other than `__proto__` gets a line, and it shows NaN. */
  lemma {:induction false} AsWrittenInheritedCategory(items: seq<Expense>, c: string)
    requires c in InheritedNames && c != "__proto__"
    ensures c in AccumulateAsWritten(items).own <==> c in CategoryList(items)
    ensures c in AccumulateAsWritten(items).own ==> AccumulateAsWritten(items).own[c] == Garbled
  {
    if items != [] {
      var init, last := items[..|items| - 1], items[|items| - 1];
      assert items == init + [last];
      CategoryStep(init, last);
      AsWrittenInheritedCategory(init, c);
    }
  }

  /** Without inherited names among the categories, the keys are the distinct categories in first-seen order. */
  lemma {:induction false} AsWrittenKeys(items: seq<Expense>)
    requires forall i :: 0 <= i < |items| ==> items[i].category !in InheritedNames
    ensures AccumulateAsWritten(items).keys == Dedup(CategoryList(items))
  {
    if items != [] {
      var init, last := items[..|items| - 1], items[|items| - 1];
      assert items == init + [last];
      CategoryStep(init, last);
      AsWrittenKeys(init);
      AsWrittenOwnCategory(init, last.category);
      DedupSnoc(CategoryList(init), last.category);
    }
  }

  /**
   * Without inherited names among the categories, the source's summary is
   * the intended one: the sorted categories, each with its total.
   */
  lemma AsWrittenMatchesIntended(items: seq<Expense>)
    requires forall i :: 0 <= i < |items| ==> items[i].category !in InheritedNames
    ensures var cs := FilterCategories(items); var lines := SummaryAsWritten(items);
      |lines| == |cs| && forall i :: 0 <= i < |cs| ==> lines[i] == ShownLine(cs[i], Num(CategoryTotal(items, cs[i])))
  {
    var acc := AccumulateAsWritten(items);
    AsWrittenKeys(items);
    var cs := FilterCategories(items);
    assert SortStrings(acc.keys) == cs;
    var lines := SummaryAsWritten(items);
    assert |lines| == |cs|;
    forall i | 0 <= i < |cs| ensures lines[i] == ShownLine(cs[i], Num(CategoryTotal(items, cs[i]))) {
      FilterCategoryListed(items, cs[i]);
      AsWrittenOwnCategory(items, cs[i]);
      assert lines[i] == ShownLine(cs[i], acc.own[cs[i]]);
    }
  }

  lemma FilterCategoryListed(items: seq<Expense>, c: string)
    requires c in FilterCategories(items)
    ensures c in CategoryList(items)
  {
    var j :| 0 <= j < |items| && items[j].category == c;
    assert CategoryList(items)[j] == c;
  }

  /** A single "toString" expense of 5 renders as one NaN line, though its category sums to 5. */
  lemma InheritedNameCounterexample()
    ensures var items := [Expense("1", 5.0, 500, "toString", "", "2024-01-15", "t", None)];
      SummaryAsWritten(items) == [ShownLine("toString", Garbled)] && CategoryTotal(items, "toString") == 5.0
  {
    var a := [Expense("1", 5.0, 500, "toString", "", "2024-01-15", "t", None)];
    assert a[..0] == [];
    assert AccumulateAsWritten(a).keys == ["toString"];
  }

  /** A single "__proto__" expense of 5 renders "No expenses", though its category sums to 5. */
  lemma ProtoNameCounterexample()
    ensures var items := [Expense("1", 5.0, 500, "__proto__", "", "2024-01-15", "t", None)];
      SummaryAsWritten(items) == [] && CategoryTotal(items, "__proto__") == 5.0
  {
    var b := [Expense("1", 5.0, 500, "__proto__", "", "2024-01-15", "t", None)];
    assert b[..0] == [];
  }
}
